=== FILE: README.md ===
# Flight-analysis ingestion of SkyLines, modelled in Dafny

SkyLines runs an external `AnalyseFlight` helper on each uploaded IGC file.
`skylines/lib/analysis.py` then copies the JSON report it prints onto the
`Flight` row. The copied data are:

- the takeoff and landing times, locations and airports;
- the three OLC metrics of the `olc_plus` contest;
- one `Trace` row per contest trace that has at least two usable turnpoints.

This project models that ingestion once the report has been decoded. Its
parts are:

- the guarded readers `read_location`, `import_location_attribute`,
  `import_datetime_attribute`, `find_contest`, `find_trace` and
  `read_time_of_day`;
- the trace builders `save_trace`, `save_contest` and `save_contests`;
- the body of `analyse_flight` from line 152 on.

The modules are:

- `PyValues` (`python_values.dfy`): the decoded report as a JSON tree, in
  which `JNull` is also Python's `None`, and Python's outcomes as
  `Py<T> = Ok(value) | Raise(exc)`. It also holds the built-in operations the
  code applies to report nodes: `key in node`, `node[key]`, `for x in node`,
  `iteritems()` and truth testing. Each behaves as it does in Python 2 on
  every kind of node, including the exceptions.
- `Text` and `PyNumbers` (`text.dfy`, `python_numbers.dfy`): `int()` and
  `float()` of a report value.
- `Timestamps` (`timestamps.dfy`): a naive `datetime` at whole-second
  precision, and `datetime.strptime(text, '%Y-%m-%dT%H:%M:%SZ')` as Python
  2.7 evaluates it.
- `Readers` (`readers.dfy`): the six readers, as pure functions.
- `Traces` (`traces.dfy`): what the trace builders append to
  `flight.traces`, as functions of the report.
  - The turnpoint loop of `save_trace` is a fold (`Gather`) over the
    per-turnpoint results (`ReadPoint`).
  - The loops of `save_contest` and `save_contests` are a fold (`Chain`) over
    the effects of the calls they make.
- `Ingest` (`ingest.dfy`): a `Flight` class whose fields the methods assign
  in place.
  - `SaveTrace`, `SaveContest`, `SaveContests` and `AnalyseFlight` run the
    code's loops and assignments.
  - Each method is proved against the matching function of `Traces` or
    against `Analyse`, the whole run as a function of the flight's previous
    fields.

Python exceptions are part of the model. Any exception the code lets escape
ends the run with `Raise`, and fields already assigned and traces already
appended stay as they are. No operation has a precondition on the shape of
the report.

The model follows the code where other accounts of it differ:

- An `int()` that fails in `read_time_of_day` (line 82) or in the OLC block
  (lines 170, 176, 182) raises rather than leaving the field unset.
- A report node of the wrong kind raises TypeError or AttributeError
  wherever the code does not guard against it. (Every subscript follows an
  `in` test on the same key, so KeyError never arises.) This covers a
  number where a dict is expected, a contest that is not a dict, and a
  `times` value that is not a string.
- `datetime.strptime` converts its argument to a C string. A timestamp
  text outside ASCII fails to encode with UnicodeEncodeError, a ValueError
  that line 57 catches, so it reads as None. An ASCII text holding a NUL
  character raises TypeError, which `except ValueError` (line 57) does not
  catch, and it ends the run.
- Running the ingestion twice on one flight appends every saved trace a
  second time (`AnalyseRerunAppendsAgain`), because nothing clears
  `flight.traces`.
- A truthy root that is not a dict is not rejected up front. A non-empty
  string root, for example, makes every `in` test a substring test, and the
  run can succeed without reading anything.

## Model

| member | source | states |
|---|---|---|
| PyValues.Contains | skylines/lib/analysis.py:28 | `key in node` is, on a dict, whether some pair has the key; it raises TypeError exactly on None, booleans and numbers |
| PyValues.Subscript | skylines/lib/analysis.py:48 | `node[key]` succeeds exactly on a dict holding the key and gives the value stored under it; otherwise KeyError on a dict, TypeError on anything else |
| PyValues.Iterate | skylines/lib/analysis.py:97 | `for x in node` visits a list's items, a dict's keys in order, or a string's characters, each as a one-character string; it raises TypeError exactly on None, booleans and numbers |
| PyValues.IterItems | skylines/lib/analysis.py:120 | `iteritems()` succeeds exactly on a dict and gives its pairs; otherwise AttributeError |
| PyValues.Truthy | skylines/lib/analysis.py:152 | a report is false exactly when it is None, False, a numeric zero, or an empty string, list or dict |
| PyNumbers.ToInt | skylines/lib/analysis.py:82 | `int(v)` of an integer is that integer; a failure is ValueError for a string and TypeError otherwise, and TypeError happens exactly for None, lists and dicts |
| PyNumbers.IntTextRoundTrip | skylines/lib/analysis.py:82 | `int(str(n)) == n` for every integer `n`: the text `str()` gives for any integer, negative ones included, is accepted and read back as that integer |
| PyNumbers.ToIntAcceptsOnlySpellings | skylines/lib/analysis.py:82 | every string `int()` accepts is leading blanks, an optional sign, blanks only after a sign, one or more digits and trailing blanks, and it reads as the digits' value, negated after a minus |
| PyNumbers.ToIntNeedsADigit | skylines/lib/analysis.py:82 | a string without a decimal digit, such as `"noon"`, makes `int()` raise ValueError, which the unguarded calls let escape |
| PyNumbers.ToIntAcceptsSpellings | skylines/lib/analysis.py:82 | every string spelled as leading blanks, an optional sign, blanks only after a sign, one or more digits and trailing blanks is accepted by `int()` and reads as the digits' value, negated after a minus; with `ToIntAcceptsOnlySpellings` this characterises `int()` on strings exactly |
| PyNumbers.ToIntSkipsBlanksAfterSign | skylines/lib/analysis.py:82 | `int()` accepts blanks between the sign and the digits: a sign, any run of blanks and a run of digits read as the digits' value, negated after a minus |
| PyNumbers.TruncateTowardZero | skylines/lib/analysis.py:170 | `int()` of a float truncates toward zero: the result lies within 1 of the float and is no farther from zero |
| PyNumbers.DecimalLiteralOfInteger | skylines/lib/analysis.py:32-33 | a signed integer written without blanks, read as a decimal floating-point literal, denotes the same number |
| PyNumbers.ToFloatOfSignedInteger | skylines/lib/analysis.py:32-33 | `float()` of a signed integer written without blanks succeeds and gives the same number |
| PyNumbers.ToFloat | skylines/lib/analysis.py:32-33 | `float(v)` of a number is that number; a failure is ValueError for a string and TypeError otherwise, and TypeError happens exactly for None, lists and dicts |
| Timestamps.DayNumber | skylines/lib/analysis.py:56 | a valid broken-down date falls on a day within the `datetime` range |
| Timestamps.DayNumberNext | skylines/lib/analysis.py:85-86 | day numbers follow the calendar: the next date of any valid date but 9999-12-31 is valid and one day later. This holds within a month, across a month end and across a year end, leap years included |
| Timestamps.ToSeconds | skylines/lib/analysis.py:56 | a valid broken-down datetime is an instant whose day is its date and whose second within the day is its time of day |
| Timestamps.Midnight | skylines/lib/analysis.py:85-86 | midnight of an instant's date lies on the same day, at a whole day, no later than the instant and less than a day before it |
| Timestamps.MatchIsoFormat | skylines/lib/analysis.py:56 | the fields of a text the format's regular expression matches lie in range: a year in 0..9999, a month in 1..12, a day in 1..31, an hour in 0..23, a minute in 0..59 and a second in 0..61 |
| Timestamps.ParseIsoUtc | skylines/lib/analysis.py:56 | None when the format's regular expression does not match the text; when it matches, an instant exactly when the matched fields form a valid datetime, and then the instant of those fields |
| Timestamps.SplitCanonical | skylines/lib/analysis.py:56 | cutting the text `YYYY-MM-DDTHH:MM:SSZ` at the first separator after each field gives back the padded fields and the final `Z` |
| Timestamps.MatchCanonical | skylines/lib/analysis.py:56 | the regular expression `strptime` builds for the format matches the canonical spelling of a valid datetime and recovers each of its fields |
| Timestamps.ParseFormatRoundTrip | skylines/lib/analysis.py:56 | parsing the canonical spelling of a valid datetime gives that datetime back |
| Readers.FloatOrNone | skylines/lib/analysis.py:31-36 | under `except ValueError`: on a dict, a parsed value `x` gives `x`, a ValueError reads as None, and a TypeError escapes; on a list or string the subscript raises TypeError; nothing but TypeError escapes |
| Readers.ReadLocation | skylines/lib/analysis.py:19-36 | None for a None node, for a dict missing either key, or for a ValueError from either `float()`; it gives a location exactly when both keys are present and both values parse, and that location holds exactly the parsed values; only TypeError can escape |
| Readers.ImportLocationAttribute | skylines/lib/analysis.py:39-49 | None for a None node or a dict without `name`; otherwise the result of `read_location(node[name])`; only TypeError can escape |
| Readers.Strptime | skylines/lib/analysis.py:56-58 | `strptime` succeeds exactly on a string that is not an ASCII text holding a NUL character. A text outside ASCII reads as None, and any other string gives its parse as `YYYY-MM-DDTHH:MM:SSZ`, None on a mismatch. Only TypeError can escape |
| Readers.ImportDatetimeAttribute | skylines/lib/analysis.py:52-58 | None for a None node or a dict without `name`; for a string value, None when it is not ASCII, TypeError when it is ASCII and holds a NUL character, and otherwise its parse as `YYYY-MM-DDTHH:MM:SSZ`, None on a mismatch; only TypeError can escape |
| Readers.ImportDatetimeRoundTrip | skylines/lib/analysis.py:52-58 | a timestamp written in the helper's format is read back exactly |
| Readers.NodeOrNone | skylines/lib/analysis.py:155 | on a dict, the value under the key, or None when the key is missing |
| Readers.FindContest | skylines/lib/analysis.py:61-68 | None when the root has no `contests`; for a dict of contests, the named contest, or None when it is missing |
| Readers.FindTrace | skylines/lib/analysis.py:71-75 | on a dict contest, the named trace, or None when it is missing |
| Readers.ReadTimeOfDay | skylines/lib/analysis.py:78-88 | None without `time`. With a takeoff time, the exception of `int()`, or midnight of the takeoff date plus the offset when that is in range, or OverflowError when it is not. Any instant it returns has a day equal to the takeoff's day plus the offset's whole days, and a time of day equal to the offset's remainder |
| Readers.ReadTimeOfDayWithoutTakeoff | skylines/lib/analysis.py:82-86 | without a takeoff time, a turnpoint with `time` raises `int()`'s exception, OverflowError for an offset beyond `timedelta`'s 999999999 days (`TimedeltaInRange`), and AttributeError otherwise |
| Readers.TimeOfDayRollsOver | skylines/lib/analysis.py:82-86 | an offset of one day and `k` seconds from any takeoff date but the last lands `k` seconds into the next calendar date, across month and year ends too |
| Traces.ReadPointMeaning | skylines/lib/analysis.py:98-102 | a turnpoint raises the location reader's exception first, then the time reader's. Otherwise it yields a point exactly when both readers return a value, and the point is made of those two values |
| Traces.Gather | skylines/lib/analysis.py:95-105 | the loop builds as many locations as times, and no more than there are turnpoints |
| Traces.GatherOutcome | skylines/lib/analysis.py:97-99 | the turnpoint loop raises exactly when some turnpoint raises, and then with the exception of the first turnpoint that raises |
| Traces.KeptPositionsOrdered | skylines/lib/analysis.py:101-105 | the kept positions are in range and strictly increasing, and are exactly the turnpoints that yield a point |
| Traces.GatherKeepsPoints | skylines/lib/analysis.py:101-105 | when the loop completes, entry `j` of both lists is the point of the `j`th kept turnpoint |
| Traces.GatherRaisePersists | skylines/lib/analysis.py:97-99 | once a turnpoint has raised, later turnpoints change nothing |
| Traces.BuildTrace | skylines/lib/analysis.py:91-114 | None for a dict trace without `turnpoints`; any trace it builds carries the given contest and trace names and has as many times as locations, at least two |
| Traces.SaveTraceKeepsResolvedTurnpoints | skylines/lib/analysis.py:91-116 | when `turnpoints` is a list and no reader raises: a turnpoint is kept exactly when it yields a point, and kept turnpoints stay in order. With fewer than two kept, nothing is appended. Otherwise exactly one trace is appended, with the given names, one entry per kept turnpoint, and entry `j` holding the location and time of the `j`th kept turnpoint |
| Traces.TraceEffect | skylines/lib/analysis.py:91-116 | `save_trace` appends at most one trace, and any trace it appends is valid and carries the given names |
| Traces.ChainAppend | skylines/lib/analysis.py:120-121 | a loop over two lists of calls is the loop over the first followed by the loop over the second |
| Traces.ChainRaisePersists | skylines/lib/analysis.py:130-131 | once a call has raised, the loop's later turns change nothing |
| Traces.ChainKeeps | skylines/lib/analysis.py:120-121 | a property of every trace each call appends holds of every trace the loop appends |
| Traces.ContestEffect | skylines/lib/analysis.py:119-121 | `save_contest` on a value that is not a dict appends nothing and raises AttributeError |
| Traces.ContestEffectValid | skylines/lib/analysis.py:107-121 | every trace `save_contest` appends has at least two points, a time for each location, and the contest's name |
| Traces.ContestsEffect | skylines/lib/analysis.py:124-131 | on a dict root, nothing happens without a `contests` key or without a takeoff time; without a takeoff time nothing is ever appended |
| Traces.ContestsEffectValid | skylines/lib/analysis.py:107-131 | every trace `save_contests` appends has at least two points and a time for each location |
| Traces.ChainLabels | skylines/lib/analysis.py:120-121 | if each call appends only traces labelled in order from its own list, the loop appends only traces labelled in order from the concatenated lists |
| Traces.TraceEffectLabels | skylines/lib/analysis.py:110-116 | `save_trace` appends at most one trace, labelled with its own contest and trace names |
| Traces.ContestEffectLabels | skylines/lib/analysis.py:119-121 | the (contest, trace) names of the traces `save_contest` appends are a subsequence of its dict's pairs, labelled with the contest name: each pair yields at most one trace, in iteration order |
| Traces.ContestsEffectFromPairs | skylines/lib/analysis.py:124-131 | on a root whose `contests` is a dict, the (contest, trace) names of the traces `save_contests` appends are a subsequence of the report's contest and trace pairs in iteration order, so each pair yields at most one trace |
| Ingest.CollectPoints | skylines/lib/analysis.py:95-105 | the loop returns exactly what `Gather` specifies: the kept locations and times, or the first exception |
| Ingest.SaveTrace | skylines/lib/analysis.py:91-116 | the flight's traces become the old ones followed by what `TraceEffect` appends, and the outcome is `TraceEffect`'s |
| Ingest.SaveContest | skylines/lib/analysis.py:119-121 | the flight's traces become the old ones followed by what `ContestEffect` appends, and the outcome is `ContestEffect`'s |
| Ingest.SaveContestList | skylines/lib/analysis.py:130-131 | the loop over the contests appends what the chain of `ContestEffect`s appends, with its outcome |
| Ingest.SaveContests | skylines/lib/analysis.py:124-131 | the flight's traces become the old ones followed by what `ContestsEffect` appends, and the outcome is `ContestsEffect`'s |
| Ingest.OlcMetric | skylines/lib/analysis.py:168-172 | None when the trace is missing or None, or lacks the key; for a dict trace with the key, the value or the exception of `int()` on it |
| Ingest.RecordTakeoffAndLanding | skylines/lib/analysis.py:155-164 | the takeoff and landing block changes no field other than the six it writes |
| Ingest.RecordOlcMetrics | skylines/lib/analysis.py:166-184 | the OLC block changes no field other than the three metrics, and changes nothing when there is no `olc_plus` contest |
| Ingest.Analyse | skylines/lib/analysis.py:152-188 | the run returns False exactly when the report failed to parse or its root is falsy, and then no field changes; the traces that were there stay at the front of the list |
| Ingest.WriteTakeoffAndLanding | skylines/lib/analysis.py:155-164 | the assignments leave the flight in the state `RecordTakeoffAndLanding` specifies, with its outcome |
| Ingest.WriteOlcMetrics | skylines/lib/analysis.py:166-184 | the assignments leave the flight in the state `RecordOlcMetrics` specifies, with its outcome |
| Ingest.AnalyseFlight | skylines/lib/analysis.py:152-188 | the method returns what `Analyse` specifies and leaves the flight in the state it specifies |
| Ingest.RecordOlcMetricsReadsOwnTrace | skylines/lib/analysis.py:166-184 | when the OLC block completes: without `olc_plus` the three metrics keep their values; otherwise each metric is the one read from its own trace and key |
| Ingest.AnalyseOlcMetrics | skylines/lib/analysis.py:166-184 | after a successful run, each OLC metric is read from its own trace and key, so a missing trace or key unsets only that metric; without `olc_plus` all three keep their previous values |
| Ingest.RecordTakeoffAndLandingReadsReport | skylines/lib/analysis.py:155-164 | when the block completes, the times and locations hold what the readers make of the root's `times` and `locations`, and the airports are those at the new locations |
| Ingest.AnalyseSucceeds | skylines/lib/analysis.py:152-188 | a successful run is the takeoff and landing block, the OLC block and `save_contests`, each completing in turn |
| Ingest.AnalyseRecordsReport | skylines/lib/analysis.py:155-186 | after a successful run, the times, locations and airports are those read from the report, and the traces appended are exactly those `save_contests` saves for the new takeoff time |
| Ingest.RecordTakeoffAndLandingIgnoresPriorFields | skylines/lib/analysis.py:155-164 | the takeoff and landing block's outcome and the six fields it writes do not depend on the flight's previous fields |
| Ingest.RecordOlcMetricsIgnoresPriorFields | skylines/lib/analysis.py:166-184 | the OLC block's outcome, and the metrics it writes when `olc_plus` exists, do not depend on the flight's previous fields |
| Ingest.AnalyseWithoutTakeoffSavesNoTraces | skylines/lib/analysis.py:124-128 | a successful run that leaves the takeoff time None appends no trace |
| Ingest.AnalyseIgnoresPriorFields | skylines/lib/analysis.py:152-188 | from any two previous states, a run has the same outcome and appends the same traces. A successful run also leaves the same takeoff, landing and airport fields in both, and the same OLC metrics when `olc_plus` exists |
| Ingest.AnalyseKeepsTracesValid | skylines/lib/analysis.py:107-116 | if every trace of the flight has at least two turnpoints and a time for each location, so does every trace after a run, whether the run succeeds or raises part-way |
| Ingest.AnalyseRerunAppendsAgain | skylines/lib/analysis.py:186 | a second run on the same report succeeds, leaves every other field as the first run left it, and appends the first run's traces a second time |

## Left out

- Running the helper is not modelled: `helper_path`, the `os.popen` call,
  `simplejson.load` and the debug re-run (lines 15-16, 135-150). The model
  starts from the decoded report. A decoding failure is
  `Report.ParseFailed`, which makes the run return False.
- `flight_path` (lines 191-199) is process I/O, and is not part of this
  model.
- Logging (lines 136, 143-148) has no effect on the flight and is not
  modelled.
- `Airport.by_location` (lines 163-164) is a spatial database query. It is
  the parameter `airportAt`, an arbitrary function from an optional location
  to an optional airport.
- PyNumbers.ToInt: `int()` of a unicode string also accepts non-ASCII
  decimal digits and Unicode blanks. Strings here are plain character
  sequences with no Unicode database, so those spellings raise ValueError
  in the model.
- `float()` is exact. It gives the real number a decimal literal denotes,
  so binary rounding, `inf`, `nan` and hexadecimal or underscore forms are
  not modelled. `int()` and `float()` strip ASCII whitespace only.
- Dict iteration order is the order of the report's pairs. Python 2 does
  not fix that order, so a property that depends on it holds for that
  chosen order. A dict's keys are assumed distinct: a lookup takes the first
  pair with the key.
- A JSON string is a sequence of characters, with no distinction between
  `str` and `unicode`.
- `datetime` is whole seconds. The helper's format has no fractional part,
  and the time zone is naive UTC as in the code.
- Persisting the flight and its `Trace` rows through the database session
  is not modelled. `flight.traces` is a list the code appends to.

=== FILE: ingest.dfy ===
/**
 * The part of the analysis ingestion that writes to a flight: `save_trace`,
 * `save_contest` and `save_contests` append to `flight.traces`, and the body
 * of `analyse_flight` after the report has been parsed overwrites the
 * flight's takeoff and landing fields and its OLC metrics, then saves the
 * contest traces.
 *
 * Each method is proved against a function of the report and the flight's
 * prior state; the properties of the ingestion are lemmas about those
 * functions.
 */
module Ingest {
  import opened PyValues
  import opened PyNumbers
  import opened Timestamps
  import opened Readers
  import opened Traces

  /** An airport row, as `Airport.by_location` returns it. */
  datatype Airport = Airport(id: int)

  /** The fields of a flight this code writes, as one value. */
  datatype FlightState = FlightState(
    takeoffTime: Option<DateTime>,
    landingTime: Option<DateTime>,
    takeoffLocation: Option<Location>,
    landingLocation: Option<Location>,
    takeoffAirport: Option<Airport>,
    landingAirport: Option<Airport>,
    olcClassicDistance: Option<int>,
    olcTriangleDistance: Option<int>,
    olcPlusScore: Option<int>,
    traces: seq<ContestTrace>)

  /** The `Flight` row being analysed; the methods below assign its fields in place. */
  class Flight {
    var takeoffTime: Option<DateTime>
    var landingTime: Option<DateTime>
    var takeoffLocation: Option<Location>
    var landingLocation: Option<Location>
    var takeoffAirport: Option<Airport>
    var landingAirport: Option<Airport>
    var olcClassicDistance: Option<int>
    var olcTriangleDistance: Option<int>
    var olcPlusScore: Option<int>
    var traces: seq<ContestTrace>

    function State(): FlightState
      reads this
    {
      FlightState(takeoffTime, landingTime, takeoffLocation, landingLocation, takeoffAirport,
                  landingAirport, olcClassicDistance, olcTriangleDistance, olcPlusScore, traces)
    }
  }

  // ----- save_trace, save_contest, save_contests -----

  /**
   * The loop of `save_trace` (lines 95-105): the locations and times of the
   * turnpoints whose location and time are both set, or the exception a
   * reader raised.
   */
  method CollectPoints(turnpoints: seq<Json>, takeoff: Option<DateTime>)
    returns (r: Py<(seq<Location>, seq<DateTime>)>)
    ensures r == Gather(PointResults(turnpoints, takeoff))
  {
    ghost var results := PointResults(turnpoints, takeoff);
    var locations: seq<Location> := [];
    var times: seq<DateTime> := [];
    for i := 0 to |turnpoints|
      invariant Gather(results[..i]) == Ok((locations, times))
    {
      assert results[..i + 1][..i] == results[..i];
      ReadPointMeaning(turnpoints[i], takeoff);
      var location := ReadLocation(turnpoints[i]);
      if location.Raise? {
        GatherRaisePersists(results, i + 1);
        return Raise(location.exc);
      }
      var time := ReadTimeOfDay(turnpoints[i], takeoff);
      if time.Raise? {
        GatherRaisePersists(results, i + 1);
        return Raise(time.exc);
      }
      if location.value.None? || time.value.None? {
        continue;
      }
      locations := locations + [location.value.value];
      times := times + [time.value.value];
    }
    assert results[..|turnpoints|] == results;
    return Ok((locations, times));
  }

  /** `save_trace(contest_name, trace_name, trace, flight)`. */
  method SaveTrace(contestName: string, traceName: string, trace: Json, flight: Flight) returns (outcome: Py<()>)
    modifies flight`traces
    ensures var e := TraceEffect(contestName, traceName, trace, flight.takeoffTime);
            flight.traces == old(flight.traces) + e.added && outcome == e.outcome
  {
    var hasTurnpoints :- Contains(trace, "turnpoints");
    if !hasTurnpoints {
      return Ok(());
    }
    var node :- Subscript(trace, "turnpoints");
    var turnpoints :- Iterate(node);
    var points :- CollectPoints(turnpoints, flight.takeoffTime);
    var (locations, times) := points;
    if |locations| < 2 || |times| < 2 {
      return Ok(());
    }
    flight.traces := flight.traces + [ContestTrace(contestName, traceName, locations, times)];
    return Ok(());
  }

  /** `save_contest(contest_name, traces, flight)`. */
  method SaveContest(contestName: string, traces: Json, flight: Flight) returns (outcome: Py<()>)
    modifies flight`traces
    ensures var e := ContestEffect(contestName, traces, flight.takeoffTime);
            flight.traces == old(flight.traces) + e.added && outcome == e.outcome
  {
    var takeoff := flight.takeoffTime;
    var pairs :- IterItems(traces);
    ghost var effects := TraceEffects(contestName, pairs, takeoff);
    assert ContestEffect(contestName, traces, takeoff) == Chain(effects);
    for i := 0 to |pairs|
      invariant Chain(effects[..i]).outcome == Ok(())
      invariant flight.traces == old(flight.traces) + Chain(effects[..i]).added
    {
      ghost var done := flight.traces;
      var saved := SaveTrace(contestName, pairs[i].0, pairs[i].1, flight);
      assert effects[i] == TraceEffect(contestName, pairs[i].0, pairs[i].1, takeoff);
      ChainStepAppends(effects, i, old(flight.traces), done, flight.traces);
      if saved.Raise? {
        ChainRaisePersists(effects, i + 1);
        return saved;
      }
    }
    assert effects[..|pairs|] == effects;
    return Ok(());
  }

  /** The loop of `save_contests` (lines 130-131) over its (contest name, traces) pairs. */
  method SaveContestList(contests: seq<(string, Json)>, flight: Flight) returns (outcome: Py<()>)
    modifies flight`traces
    ensures var e := Chain(ContestEffects(contests, flight.takeoffTime));
            flight.traces == old(flight.traces) + e.added && outcome == e.outcome
  {
    var takeoff := flight.takeoffTime;
    ghost var effects := ContestEffects(contests, takeoff);
    for i := 0 to |contests|
      invariant Chain(effects[..i]).outcome == Ok(())
      invariant flight.traces == old(flight.traces) + Chain(effects[..i]).added
    {
      ghost var done := flight.traces;
      var saved := SaveContest(contests[i].0, contests[i].1, flight);
      assert effects[i] == ContestEffect(contests[i].0, contests[i].1, takeoff);
      ChainStepAppends(effects, i, old(flight.traces), done, flight.traces);
      if saved.Raise? {
        ChainRaisePersists(effects, i + 1);
        return saved;
      }
    }
    assert effects[..|contests|] == effects;
    return Ok(());
  }

  /** `save_contests(root, flight)`. */
  method SaveContests(root: Json, flight: Flight) returns (outcome: Py<()>)
    modifies flight`traces
    ensures var e := ContestsEffect(root, flight.takeoffTime);
            flight.traces == old(flight.traces) + e.added && outcome == e.outcome
  {
    var hasContests :- Contains(root, "contests");
    if !hasContests || flight.takeoffTime.None? {
      return Ok(());
    }
    var node :- Subscript(root, "contests");
    var contests :- IterItems(node);
    outcome := SaveContestList(contests, flight);
  }

  // ----- analyse_flight after the report has been parsed -----

  /** What the helper's output decoded to: `simplejson.load` failed, or the report. */
  datatype Report = ParseFailed | Parsed(root: Json)

  /** The outcome of a run of `analyse_flight` and the flight's fields afterwards. */
  datatype Run = Run(outcome: Py<bool>, flight: FlightState)

  /**
   * One OLC metric: `int(trace[key])` for `trace = find_trace(contest, name)`,
   * or None when that trace is None or lacks `key`.
   */
  function OlcMetric(contest: Json, traceName: string, key: string): (r: Py<Option<int>>)
    ensures contest.JObj? && Lookup(contest.fields, traceName).None? ==> r == Ok(None)
    ensures contest.JObj? && Lookup(contest.fields, traceName) == Some(JNull) ==> r == Ok(None)
    ensures contest.JObj? && Lookup(contest.fields, traceName).Some? && Lookup(contest.fields, traceName).value.JObj? ==>
              var fields := Lookup(contest.fields, traceName).value.fields;
              && (Lookup(fields, key).None? ==> r == Ok(None))
              && (Lookup(fields, key).Some? ==>
                    match ToInt(Lookup(fields, key).value)
                    case Ok(n) => r == Ok(Some(n))
                    case Raise(x) => r == Raise(x))
  {
    var trace :- FindTrace(contest, traceName);
    if trace.JNull? then Ok(None)
    else
      var has :- Contains(trace, key);
      if !has then Ok(None)
      else
        var value :- Subscript(trace, key);
        var n :- ToInt(value);
        Ok(Some(n))
  }

  /** The outcome of one block of `analyse_flight` and the flight's fields after it. */
  datatype Step = Step(outcome: Py<()>, flight: FlightState)

  /**
   * Lines 155-164: the takeoff and landing times, then locations, then
   * airports, each field written as soon as it is read. Only these six
   * fields change.
   */
  function RecordTakeoffAndLanding(root: Json, s: FlightState, airportAt: Option<Location> -> Option<Airport>)
    : (r: Step)
    ensures r.flight.(takeoffTime := s.takeoffTime, landingTime := s.landingTime,
                      takeoffLocation := s.takeoffLocation, landingLocation := s.landingLocation,
                      takeoffAirport := s.takeoffAirport, landingAirport := s.landingAirport) == s
  {
    var times := NodeOrNone(root, "times");
    if times.Raise? then Step(Raise(times.exc), s) else
    var takeoffTime := ImportDatetimeAttribute(times.value, "takeoff");
    if takeoffTime.Raise? then Step(Raise(takeoffTime.exc), s) else
    var s1 := s.(takeoffTime := takeoffTime.value);
    var landingTime := ImportDatetimeAttribute(times.value, "landing");
    if landingTime.Raise? then Step(Raise(landingTime.exc), s1) else
    var s2 := s1.(landingTime := landingTime.value);
    var locations := NodeOrNone(root, "locations");
    if locations.Raise? then Step(Raise(locations.exc), s2) else
    var takeoffLocation := ImportLocationAttribute(locations.value, "takeoff");
    if takeoffLocation.Raise? then Step(Raise(takeoffLocation.exc), s2) else
    var s3 := s2.(takeoffLocation := takeoffLocation.value);
    var landingLocation := ImportLocationAttribute(locations.value, "landing");
    if landingLocation.Raise? then Step(Raise(landingLocation.exc), s3) else
    var s4 := s3.(landingLocation := landingLocation.value);
    Step(Ok(()), s4.(takeoffAirport := airportAt(s4.takeoffLocation), landingAirport := airportAt(s4.landingLocation)))
  }

  /**
   * Lines 166-184: the three metrics of the `olc_plus` contest, each written
   * as soon as it is read. Only these three fields change, and none of them
   * when the report has no `olc_plus` contest.
   */
  function RecordOlcMetrics(root: Json, s: FlightState): (r: Step)
    ensures r.flight.(olcClassicDistance := s.olcClassicDistance, olcTriangleDistance := s.olcTriangleDistance,
                      olcPlusScore := s.olcPlusScore) == s
    ensures FindContest(root, "olc_plus") == Ok(JNull) ==> r == Step(Ok(()), s)
  {
    var contest := FindContest(root, "olc_plus");
    if contest.Raise? then Step(Raise(contest.exc), s)
    else if contest.value.JNull? then Step(Ok(()), s)
    else
      var classic := OlcMetric(contest.value, "classic", "distance");
      if classic.Raise? then Step(Raise(classic.exc), s) else
      var s1 := s.(olcClassicDistance := classic.value);
      var triangle := OlcMetric(contest.value, "triangle", "distance");
      if triangle.Raise? then Step(Raise(triangle.exc), s1) else
      var s2 := s1.(olcTriangleDistance := triangle.value);
      var plus := OlcMetric(contest.value, "plus", "score");
      if plus.Raise? then Step(Raise(plus.exc), s2) else
      Step(Ok(()), s2.(olcPlusScore := plus.value))
  }

  /**
   * `analyse_flight(flight)` from line 152 on, applied to a flight whose
   * fields are `s`. A raised exception leaves in place the fields written
   * before it.
   */
  function Analyse(report: Report, s: FlightState, airportAt: Option<Location> -> Option<Airport>): (r: Run)
    ensures r.outcome == Ok(false) <==> report.ParseFailed? || !Truthy(report.root)
    ensures r.outcome == Ok(false) ==> r.flight == s
    ensures |s.traces| <= |r.flight.traces| && r.flight.traces[..|s.traces|] == s.traces
  {
    if report.ParseFailed? || !Truthy(report.root) then Run(Ok(false), s)
    else
      var header := RecordTakeoffAndLanding(report.root, s, airportAt);
      if header.outcome.Raise? then Run(Raise(header.outcome.exc), header.flight) else
      var olc := RecordOlcMetrics(report.root, header.flight);
      if olc.outcome.Raise? then Run(Raise(olc.outcome.exc), olc.flight) else
      var e := ContestsEffect(report.root, olc.flight.takeoffTime);
      Run(if e.outcome.Raise? then Raise(e.outcome.exc) else Ok(true),
          olc.flight.(traces := olc.flight.traces + e.added))
  }

  /** Lines 155-164 on the flight itself: the six takeoff and landing fields, in the order they are written. */
  method WriteTakeoffAndLanding(root: Json, flight: Flight, airportAt: Option<Location> -> Option<Airport>)
    returns (outcome: Py<()>)
    modifies flight
    ensures RecordTakeoffAndLanding(root, old(flight.State()), airportAt) == Step(outcome, flight.State())
  {
    var times :- NodeOrNone(root, "times");
    var takeoffTime :- ImportDatetimeAttribute(times, "takeoff");
    flight.takeoffTime := takeoffTime;
    var landingTime :- ImportDatetimeAttribute(times, "landing");
    flight.landingTime := landingTime;

    var locations :- NodeOrNone(root, "locations");
    var takeoffLocation :- ImportLocationAttribute(locations, "takeoff");
    flight.takeoffLocation := takeoffLocation;
    var landingLocation :- ImportLocationAttribute(locations, "landing");
    flight.landingLocation := landingLocation;

    flight.takeoffAirport := airportAt(flight.takeoffLocation);
    flight.landingAirport := airportAt(flight.landingLocation);
    return Ok(());
  }

  /** Lines 166-184 on the flight itself: the three OLC metrics, in the order they are written. */
  method WriteOlcMetrics(root: Json, flight: Flight) returns (outcome: Py<()>)
    modifies flight
    ensures RecordOlcMetrics(root, old(flight.State())) == Step(outcome, flight.State())
  {
    var contest :- FindContest(root, "olc_plus");
    if !contest.JNull? {
      var classic :- OlcMetric(contest, "classic", "distance");
      flight.olcClassicDistance := classic;
      var triangle :- OlcMetric(contest, "triangle", "distance");
      flight.olcTriangleDistance := triangle;
      var plus :- OlcMetric(contest, "plus", "score");
      flight.olcPlusScore := plus;
    }
    return Ok(());
  }

  /** `analyse_flight(flight)` from line 152 on, given the decoded report. */
  method AnalyseFlight(report: Report, flight: Flight, airportAt: Option<Location> -> Option<Airport>)
    returns (r: Py<bool>)
    modifies flight
    ensures Analyse(report, old(flight.State()), airportAt) == Run(r, flight.State())
  {
    if report.ParseFailed? || !Truthy(report.root) {
      return Ok(false);
    }
    var root := report.root;
    var header := WriteTakeoffAndLanding(root, flight, airportAt);
    if header.Raise? {
      return Raise(header.exc);
    }
    var olc := WriteOlcMetrics(root, flight);
    if olc.Raise? {
      return Raise(olc.exc);
    }
    var saved := SaveContests(root, flight);
    if saved.Raise? {
      return Raise(saved.exc);
    }
    return Ok(true);
  }

  // ----- Properties of a run -----

  /**
   * When the OLC block completes, each metric is the one read from its own
   * trace of the `olc_plus` contest (so a missing trace or key makes only
   * that metric None); without an `olc_plus` contest all three keep their
   * values.
   */
  lemma RecordOlcMetricsReadsOwnTrace(root: Json, s: FlightState)
    requires RecordOlcMetrics(root, s).outcome.Ok?
    ensures FindContest(root, "olc_plus").Ok?
    ensures var after, contest := RecordOlcMetrics(root, s).flight, FindContest(root, "olc_plus").value;
            && (contest.JNull? ==>
                  && after.olcClassicDistance == s.olcClassicDistance
                  && after.olcTriangleDistance == s.olcTriangleDistance
                  && after.olcPlusScore == s.olcPlusScore)
            && (!contest.JNull? ==>
                  && OlcMetric(contest, "classic", "distance") == Ok(after.olcClassicDistance)
                  && OlcMetric(contest, "triangle", "distance") == Ok(after.olcTriangleDistance)
                  && OlcMetric(contest, "plus", "score") == Ok(after.olcPlusScore))
  {
  }

  /**
   * After a successful run, each OLC metric is the one read from its own
   * trace of the `olc_plus` contest; without an `olc_plus` contest all three
   * keep the values they had before the run.
   */
  lemma AnalyseOlcMetrics(report: Report, s: FlightState, airportAt: Option<Location> -> Option<Airport>)
    requires Analyse(report, s, airportAt).outcome == Ok(true)
    ensures report.Parsed? && FindContest(report.root, "olc_plus").Ok?
    ensures var after, contest := Analyse(report, s, airportAt).flight, FindContest(report.root, "olc_plus").value;
            && (contest.JNull? ==>
                  && after.olcClassicDistance == s.olcClassicDistance
                  && after.olcTriangleDistance == s.olcTriangleDistance
                  && after.olcPlusScore == s.olcPlusScore)
            && (!contest.JNull? ==>
                  && OlcMetric(contest, "classic", "distance") == Ok(after.olcClassicDistance)
                  && OlcMetric(contest, "triangle", "distance") == Ok(after.olcTriangleDistance)
                  && OlcMetric(contest, "plus", "score") == Ok(after.olcPlusScore))
  {
    var header := RecordTakeoffAndLanding(report.root, s, airportAt);
    RecordOlcMetricsReadsOwnTrace(report.root, header.flight);
  }

  /**
   * When the takeoff and landing block completes, the times and locations
   * hold what the readers make of the root's `times` and `locations`, and
   * the airports are those at the new locations.
   */
  lemma RecordTakeoffAndLandingReadsReport(root: Json, s: FlightState, airportAt: Option<Location> -> Option<Airport>)
    requires RecordTakeoffAndLanding(root, s, airportAt).outcome.Ok?
    ensures var after := RecordTakeoffAndLanding(root, s, airportAt).flight;
            var times, locations := NodeOrNone(root, "times"), NodeOrNone(root, "locations");
            && times.Ok? && locations.Ok?
            && ImportDatetimeAttribute(times.value, "takeoff") == Ok(after.takeoffTime)
            && ImportDatetimeAttribute(times.value, "landing") == Ok(after.landingTime)
            && ImportLocationAttribute(locations.value, "takeoff") == Ok(after.takeoffLocation)
            && ImportLocationAttribute(locations.value, "landing") == Ok(after.landingLocation)
            && after.takeoffAirport == airportAt(after.takeoffLocation)
            && after.landingAirport == airportAt(after.landingLocation)
  {
  }

  /**
   * A successful run is its three blocks run in turn, each completing: the
   * flight ends as the OLC block leaves it, with the traces `save_contests`
   * saves appended.
   */
  lemma AnalyseSucceeds(report: Report, s: FlightState, airportAt: Option<Location> -> Option<Airport>)
    requires Analyse(report, s, airportAt).outcome == Ok(true)
    ensures report.Parsed?
    ensures var header := RecordTakeoffAndLanding(report.root, s, airportAt);
            var olc := RecordOlcMetrics(report.root, header.flight);
            var e := ContestsEffect(report.root, olc.flight.takeoffTime);
            && header.outcome.Ok? && olc.outcome.Ok? && e.outcome.Ok?
            && olc.flight.takeoffTime == header.flight.takeoffTime
            && Analyse(report, s, airportAt).flight == olc.flight.(traces := olc.flight.traces + e.added)
  {
  }

  /**
   * After a successful run, the takeoff and landing fields hold what the
   * readers make of the report's `times` and `locations`, the airports are
   * those at the new locations, and the traces saved from the report's
   * contests are appended.
   */
  lemma AnalyseRecordsReport(report: Report, s: FlightState, airportAt: Option<Location> -> Option<Airport>)
    requires Analyse(report, s, airportAt).outcome == Ok(true)
    ensures report.Parsed?
    ensures var root, after := report.root, Analyse(report, s, airportAt).flight;
            var times, locations := NodeOrNone(root, "times"), NodeOrNone(root, "locations");
            && times.Ok? && locations.Ok?
            && ImportDatetimeAttribute(times.value, "takeoff") == Ok(after.takeoffTime)
            && ImportDatetimeAttribute(times.value, "landing") == Ok(after.landingTime)
            && ImportLocationAttribute(locations.value, "takeoff") == Ok(after.takeoffLocation)
            && ImportLocationAttribute(locations.value, "landing") == Ok(after.landingLocation)
            && after.takeoffAirport == airportAt(after.takeoffLocation)
            && after.landingAirport == airportAt(after.landingLocation)
            && ContestsEffect(root, after.takeoffTime).outcome.Ok?
            && ContestsEffect(root, after.takeoffTime).added == after.traces[|s.traces|..]
  {
    AnalyseSucceeds(report, s, airportAt);
    var header := RecordTakeoffAndLanding(report.root, s, airportAt);
    RecordTakeoffAndLandingReadsReport(report.root, s, airportAt);
    var olc := RecordOlcMetrics(report.root, header.flight);
    var e := ContestsEffect(report.root, olc.flight.takeoffTime);
    assert (olc.flight.traces + e.added)[|s.traces|..] == e.added;
  }

  /** The takeoff and landing block neither reads the fields it writes nor depends on any other. */
  lemma RecordTakeoffAndLandingIgnoresPriorFields(root: Json, s: FlightState, t: FlightState,
                                                  airportAt: Option<Location> -> Option<Airport>)
    ensures var a, b := RecordTakeoffAndLanding(root, s, airportAt), RecordTakeoffAndLanding(root, t, airportAt);
            && a.outcome == b.outcome
            && (a.outcome.Ok? ==>
                  && a.flight.takeoffTime == b.flight.takeoffTime
                  && a.flight.landingTime == b.flight.landingTime
                  && a.flight.takeoffLocation == b.flight.takeoffLocation
                  && a.flight.landingLocation == b.flight.landingLocation
                  && a.flight.takeoffAirport == b.flight.takeoffAirport
                  && a.flight.landingAirport == b.flight.landingAirport)
  {
  }

  /** The OLC block's outcome, and the metrics it writes, depend on the report alone. */
  lemma RecordOlcMetricsIgnoresPriorFields(root: Json, s: FlightState, t: FlightState)
    ensures var a, b := RecordOlcMetrics(root, s), RecordOlcMetrics(root, t);
            && a.outcome == b.outcome
            && (a.outcome.Ok? && FindContest(root, "olc_plus") != Ok(JNull) ==>
                  && a.flight.olcClassicDistance == b.flight.olcClassicDistance
                  && a.flight.olcTriangleDistance == b.flight.olcTriangleDistance
                  && a.flight.olcPlusScore == b.flight.olcPlusScore)
  {
  }

  /**
   * Without a takeoff time no trace is saved: a successful run that leaves
   * `takeoff_time` None leaves the traces as they were, whatever the OLC
   * metrics (which need no time) become.
   */
  lemma AnalyseWithoutTakeoffSavesNoTraces(report: Report, s: FlightState, airportAt: Option<Location> -> Option<Airport>)
    requires Analyse(report, s, airportAt).outcome.Ok?
    requires Analyse(report, s, airportAt).flight.takeoffTime.None?
    ensures Analyse(report, s, airportAt).flight.traces == s.traces
  {
  }

  /**
   * A run never reads the fields it writes: from any two prior states it has
   * the same outcome and appends the same traces, and a successful run
   * leaves the same takeoff, landing and airport fields in both, and the
   * same OLC metrics when the report has an `olc_plus` contest.
   */
  lemma AnalyseIgnoresPriorFields(report: Report, s: FlightState, t: FlightState,
                                  airportAt: Option<Location> -> Option<Airport>)
    ensures var a, b := Analyse(report, s, airportAt), Analyse(report, t, airportAt);
            && a.outcome == b.outcome
            && a.flight.traces[|s.traces|..] == b.flight.traces[|t.traces|..]
            && (a.outcome == Ok(true) ==>
                  && a.flight.takeoffTime == b.flight.takeoffTime
                  && a.flight.landingTime == b.flight.landingTime
                  && a.flight.takeoffLocation == b.flight.takeoffLocation
                  && a.flight.landingLocation == b.flight.landingLocation
                  && a.flight.takeoffAirport == b.flight.takeoffAirport
                  && a.flight.landingAirport == b.flight.landingAirport)
            && (a.outcome == Ok(true) && report.Parsed? && FindContest(report.root, "olc_plus") != Ok(JNull) ==>
                  && a.flight.olcClassicDistance == b.flight.olcClassicDistance
                  && a.flight.olcTriangleDistance == b.flight.olcTriangleDistance
                  && a.flight.olcPlusScore == b.flight.olcPlusScore)
  {
    if report.Parsed? && Truthy(report.root) {
      var root := report.root;
      var headerS, headerT := RecordTakeoffAndLanding(root, s, airportAt), RecordTakeoffAndLanding(root, t, airportAt);
      RecordTakeoffAndLandingIgnoresPriorFields(root, s, t, airportAt);
      if headerS.outcome.Ok? {
        var olcS, olcT := RecordOlcMetrics(root, headerS.flight), RecordOlcMetrics(root, headerT.flight);
        RecordOlcMetricsIgnoresPriorFields(root, headerS.flight, headerT.flight);
        if olcS.outcome.Ok? {
          assert olcS.flight.takeoffTime == olcT.flight.takeoffTime;
          var e := ContestsEffect(root, olcS.flight.takeoffTime);
          assert (olcS.flight.traces + e.added)[|s.traces|..] == e.added;
          assert (olcT.flight.traces + e.added)[|t.traces|..] == e.added;
        } else {
          assert olcS.flight.traces[|s.traces|..] == [];
          assert olcT.flight.traces[|t.traces|..] == [];
        }
      } else {
        assert headerS.flight.traces[|s.traces|..] == [];
        assert headerT.flight.traces[|t.traces|..] == [];
      }
    } else {
      assert s.traces[|s.traces|..] == [] && t.traces[|t.traces|..] == [];
    }
  }

  /**
   * Every trace a flight holds is valid, at least two turnpoints and a time
   * for each location, if it was before the run: a run, whether it succeeds
   * or raises part-way, only appends traces `save_trace` has checked.
   */
  lemma AnalyseKeepsTracesValid(report: Report, s: FlightState, airportAt: Option<Location> -> Option<Airport>)
    requires forall i :: 0 <= i < |s.traces| ==> s.traces[i].Valid()
    ensures var after := Analyse(report, s, airportAt).flight;
            forall i :: 0 <= i < |after.traces| ==> after.traces[i].Valid()
  {
    if report.Parsed? && Truthy(report.root) {
      var header := RecordTakeoffAndLanding(report.root, s, airportAt);
      if header.outcome.Ok? {
        var olc := RecordOlcMetrics(report.root, header.flight);
        if olc.outcome.Ok? {
          ContestsEffectValid(report.root, olc.flight.takeoffTime);
        }
      }
    }
  }

  /**
   * Analysing the same report again is not idempotent: the second run
   * succeeds, leaves every other field as the first run left it, and
   * appends the traces of the first run a second time.
   */
  lemma AnalyseRerunAppendsAgain(report: Report, s: FlightState, airportAt: Option<Location> -> Option<Airport>)
    requires Analyse(report, s, airportAt).outcome == Ok(true)
    ensures var first := Analyse(report, s, airportAt).flight;
            var added := first.traces[|s.traces|..];
            Analyse(report, first, airportAt) == Run(Ok(true), first.(traces := first.traces + added))
  {
    var first := Analyse(report, s, airportAt).flight;
    var second := Analyse(report, first, airportAt);
    AnalyseIgnoresPriorFields(report, s, first, airportAt);
    AnalyseOlcMetrics(report, s, airportAt);
    AnalyseOlcMetrics(report, first, airportAt);
    assert second.flight.traces == first.traces + second.flight.traces[|first.traces|..];
  }
}

=== FILE: python_numbers.dfy ===
/**
 * Python 2's `int(v)` and `float(v)` applied to a report value. Numbers are
 * exact: a JSON float is a real, and `float()` of a decimal literal gives the
 * real the literal denotes (binary rounding is not modelled).
 */
module PyNumbers {
  import opened PyValues
  import opened Text

  /** An optional sign followed by one or more decimal digits, as an exponent of `float()` is written. */
  function SignedInteger(t: string): (r: Option<int>)
    ensures r.Some? ==> |t| > 0 && IsDigit(t[|t| - 1])
  {
    if |t| > 0 && (t[0] == '+' || t[0] == '-') then
      var d := t[1..];
      if |d| > 0 && AllDigits(d) then
        var n: int := DigitsValue(d);
        Some(if t[0] == '-' then -n else n)
      else
        None
    else if |t| > 0 && AllDigits(t) then Some(DigitsValue(t))
    else None
  }

  /**
   * The text `int()` accepts once the blanks around it are stripped: an
   * optional sign, then blanks (skipped again after the sign), then one or
   * more decimal digits.
   */
  function IntLiteral(t: string): (r: Option<int>)
  {
    var negative := |t| > 0 && t[0] == '-';
    var digits := if |t| > 0 && (t[0] == '+' || t[0] == '-') then StripLeft(t[1..]) else t;
    if |digits| > 0 && AllDigits(digits) then
      var n: int := DigitsValue(digits);
      Some(if negative then -n else n)
    else
      None
  }

  /** The decimal digits of `n`, most significant first, without leading zeros. */
  function NatText(n: nat): (t: string)
    ensures |t| > 0 && AllDigits(t)
  {
    if n < 10 then [DigitChar(n)] else NatText(n / 10) + [DigitChar(n % 10)]
  }

  /** `str(n)`: a minus sign before the digits of a negative integer. */
  function IntText(n: int): string {
    if n < 0 then "-" + NatText(-n) else NatText(n)
  }

  lemma {:induction false} NatTextValue(n: nat)
    ensures DigitsValue(NatText(n)) == n
  {
    if n >= 10 {
      NatTextValue(n / 10);
      var t := NatText(n);
      assert t[..|t| - 1] == NatText(n / 10);
    }
  }

  /** On a text that is its own `strip()`, `int()` gives the value `IntLiteral` reads. */
  lemma ToIntOfLiteral(t: string, v: int)
    requires Strip(t) == t && IntLiteral(t) == Some(v)
    ensures ToInt(JStr(t)) == Ok(v)
  {
  }

  /** A run of digits with no sign reads as its value. */
  lemma IntLiteralUnsigned(digits: string)
    requires |digits| > 0 && AllDigits(digits)
    ensures IntLiteral(digits) == Some(DigitsValue(digits))
  {
    assert digits[0] != '+' && digits[0] != '-';
    var n: int := DigitsValue(digits);
    assert IntLiteral(digits) == Some(n);
  }

  /** A sign, then blanks, then a run of digits, read as its value, negated after a minus sign. */
  lemma IntLiteralSigned(sign: char, blanks: string, digits: string)
    requires sign == '+' || sign == '-'
    requires AllBlank(blanks)
    requires |digits| > 0 && AllDigits(digits)
    ensures IntLiteral([sign] + blanks + digits) == Some(if sign == '-' then -(DigitsValue(digits) as int) else DigitsValue(digits))
    ensures Strip([sign] + blanks + digits) == [sign] + blanks + digits
  {
    var tail := blanks + digits;
    var t := [sign] + tail;
    assert t == [sign] + blanks + digits;
    assert t[1..] == tail;
    assert !IsSpace(digits[0]);
    StripLeftBlanks(blanks, digits);
    IntLiteralAfterSign(t, digits);
    assert t[|t| - 1] == digits[|digits| - 1];
    StripTrimmed(t);
  }

  /** A sign followed by what reads, once its leading blanks are skipped, as a run of digits. */
  lemma IntLiteralAfterSign(t: string, digits: string)
    requires |t| > 0 && (t[0] == '+' || t[0] == '-')
    requires StripLeft(t[1..]) == digits && |digits| > 0 && AllDigits(digits)
    ensures IntLiteral(t) == Some(if t[0] == '-' then -(DigitsValue(digits) as int) else DigitsValue(digits))
  {
  }

  /** `int(str(n)) == n` for every integer. */
  lemma IntTextRoundTrip(n: int)
    ensures ToInt(JStr(IntText(n))) == Ok(n)
  {
    var digits := NatText(if n < 0 then -n else n);
    var t := IntText(n);
    NatTextValue(if n < 0 then -n else n);
    if n < 0 {
      assert ['-'] + [] + digits == t;
      IntLiteralSigned('-', [], digits);
    } else {
      IntLiteralUnsigned(digits);
      StripTrimmed(t);
    }
    assert IntLiteral(t) == Some(n);
    assert Strip(t) == t;
    ToIntOfLiteral(t, n);
  }

  /**
   * `int()` skips blanks between the sign and the digits: `int('- 5')` is
   * -5, and likewise for any sign, run of blanks and run of digits.
   */
  lemma ToIntSkipsBlanksAfterSign(sign: char, blanks: string, digits: string)
    requires sign == '+' || sign == '-'
    requires AllBlank(blanks)
    requires |digits| > 0 && AllDigits(digits)
    ensures ToInt(JStr([sign] + blanks + digits)) == Ok(if sign == '-' then -(DigitsValue(digits) as int) else DigitsValue(digits))
  {
    var t := [sign] + blanks + digits;
    var n: int := if sign == '-' then -(DigitsValue(digits) as int) else DigitsValue(digits);
    IntLiteralSigned(sign, blanks, digits);
    ToIntOfLiteral(t, n);
  }

  /**
   * `s` spelled as `int()` reads it: leading blanks, an optional sign, blanks
   * only after a sign, one or more digits, trailing blanks.
   */
  predicate IntSpelling(s: string, lead: string, sign: string, blanks: string, digits: string, trail: string) {
    && AllBlank(lead) && AllBlank(trail) && AllBlank(blanks)
    && (sign == "" || sign == "+" || sign == "-") && (sign == "" ==> blanks == "")
    && |digits| > 0 && AllDigits(digits)
    && s == lead + sign + blanks + digits + trail
  }

  /** The value of a spelling: that of its digits, negated after a minus sign. */
  function SpelledValue(sign: string, digits: string): int
    requires AllDigits(digits)
  {
    if sign == "-" then -(DigitsValue(digits) as int) else DigitsValue(digits)
  }

  /** Cuts a string `int()` accepts into the parts of its spelling. */
  lemma SplitAccepted(s: string, n: int) returns (lead: string, sign: string, blanks: string, digits: string, trail: string)
    requires ToInt(JStr(s)) == Ok(n)
    ensures IntSpelling(s, lead, sign, blanks, digits, trail) && n == SpelledValue(sign, digits)
  {
    lead, trail := StripParts(s);
    sign, blanks, digits := SplitLiteral(Strip(s), n);
    JoinFive(lead, sign, blanks, digits, trail);
  }

  /** The blanks `strip()` removes from either end. */
  lemma StripParts(s: string) returns (lead: string, trail: string)
    ensures AllBlank(lead) && AllBlank(trail) && s == lead + Strip(s) + trail
  {
    lead := LeadingBlanks(s);
    trail := TrailingBlanks(StripLeft(s));
  }

  lemma JoinFive(a: string, b: string, c: string, d: string, e: string)
    ensures a + (b + c + d) + e == a + b + c + d + e
  {
  }

  /** Cuts a text `IntLiteral` reads into its sign, the blanks after it and its digits. */
  lemma SplitLiteral(t: string, n: int) returns (sign: string, blanks: string, digits: string)
    requires IntLiteral(t) == Some(n)
    ensures (sign == "" || sign == "+" || sign == "-") && (sign == "" ==> blanks == "")
    ensures AllBlank(blanks) && |digits| > 0 && AllDigits(digits)
    ensures t == sign + blanks + digits && n == SpelledValue(sign, digits)
  {
    if |t| > 0 && (t[0] == '+' || t[0] == '-') {
      sign, blanks, digits := SplitSignedLiteral(t, n);
    } else {
      sign, blanks, digits := "", "", t;
      assert t == sign + blanks + digits;
    }
  }

  lemma SplitSignedLiteral(t: string, n: int) returns (sign: string, blanks: string, digits: string)
    requires |t| > 0 && (t[0] == '+' || t[0] == '-') && IntLiteral(t) == Some(n)
    ensures (sign == "+" || sign == "-") && AllBlank(blanks) && |digits| > 0 && AllDigits(digits)
    ensures t == sign + blanks + digits && n == SpelledValue(sign, digits)
  {
    sign := [t[0]];
    SignedLiteralDigits(t, n);
    blanks, digits := SplitAfterSign(t);
  }

  /** What `IntLiteral` requires of a text after its sign. */
  lemma SignedLiteralDigits(t: string, n: int)
    requires |t| > 0 && (t[0] == '+' || t[0] == '-') && IntLiteral(t) == Some(n)
    ensures |StripLeft(t[1..])| > 0 && AllDigits(StripLeft(t[1..]))
    ensures n == SpelledValue([t[0]], StripLeft(t[1..]))
  {
  }

  /** A text cut after its first character into blanks and what `StripLeft` leaves. */
  lemma SplitAfterSign(t: string) returns (blanks: string, digits: string)
    requires |t| > 0
    ensures AllBlank(blanks) && digits == StripLeft(t[1..]) && t == [t[0]] + blanks + digits
  {
    var rest := t[1..];
    blanks := LeadingBlanks(rest);
    digits := StripLeft(rest);
    var sign := [t[0]];
    assert t == sign + rest;
    JoinThree(sign, blanks, digits);
  }

  lemma JoinThree(a: string, b: string, c: string)
    ensures a + (b + c) == a + b + c
  {
  }

  /**
   * The converse of `ToIntSkipsBlanksAfterSign`: every string `int()`
   * accepts is spelled as `IntSpelling` says, and reads as its digits' value.
   */
  lemma ToIntAcceptsOnlySpellings(s: string, n: int)
    requires ToInt(JStr(s)) == Ok(n)
    ensures exists lead, sign, blanks, digits, trail ::
              IntSpelling(s, lead, sign, blanks, digits, trail) && n == SpelledValue(sign, digits)
  {
    var lead, sign, blanks, digits, trail := SplitAccepted(s, n);
  }

  /**
   * Every string spelled as `IntSpelling` says is accepted by `int()`, which
   * reads it as its digits' value, negated after a minus sign.
   */
  lemma ToIntAcceptsSpellings(s: string, lead: string, sign: string, blanks: string, digits: string, trail: string)
    requires IntSpelling(s, lead, sign, blanks, digits, trail)
    ensures ToInt(JStr(s)) == Ok(SpelledValue(sign, digits))
  {
    var t := sign + blanks + digits;
    JoinFive(lead, sign, blanks, digits, trail);
    LiteralOfSpelling(sign, blanks, digits);
    StripSurrounded(lead, t, trail);
    ToIntOfStripped(s, SpelledValue(sign, digits));
  }

  lemma ToIntOfStripped(s: string, v: int)
    requires IntLiteral(Strip(s)) == Some(v)
    ensures ToInt(JStr(s)) == Ok(v)
  {
  }

  /** The core of a spelling, between its leading and trailing blanks, as `IntLiteral` reads it. */
  lemma LiteralOfSpelling(sign: string, blanks: string, digits: string)
    requires (sign == "" || sign == "+" || sign == "-") && (sign == "" ==> blanks == "")
    requires AllBlank(blanks) && |digits| > 0 && AllDigits(digits)
    ensures var t := sign + blanks + digits;
            && t != [] && !IsSpace(t[0]) && !IsSpace(t[|t| - 1])
            && IntLiteral(t) == Some(SpelledValue(sign, digits))
  {
    var t := sign + blanks + digits;
    assert t[|t| - 1] == digits[|digits| - 1];
    if sign == "" {
      assert t == digits;
      IntLiteralUnsigned(digits);
    } else {
      assert sign == [sign[0]];
      IntLiteralSigned(sign[0], blanks, digits);
    }
  }

  /** A string without a decimal digit, such as `"noon"`, makes `int()` raise ValueError. */
  lemma ToIntNeedsADigit(s: string)
    requires forall i :: 0 <= i < |s| ==> !IsDigit(s[i])
    ensures ToInt(JStr(s)) == Raise(ValueError)
  {
    if ToInt(JStr(s)).Ok? {
      var lead, sign, blanks, digits, trail := SplitAccepted(s, ToInt(JStr(s)).value);
      DigitInside(lead + sign + blanks, digits, trail);
    }
  }

  lemma DigitInside(before: string, digits: string, after: string)
    requires |digits| > 0 && AllDigits(digits)
    ensures IsDigit((before + digits + after)[|before|])
  {
    assert (before + digits + after)[|before|] == digits[0];
  }

  function Scale(exponent: int): (s: real)
    ensures s > 0.0
  {
    if exponent >= 0 then Pow10(exponent) as real else 1.0 / (Pow10(-exponent) as real)
  }

  /**
   * A decimal floating-point literal: optional sign, digits with an optional
   * fraction (at least one digit in all), optional exponent.
   */
  function DecimalLiteral(t: string): Option<real> {
    var negative := |t| > 0 && t[0] == '-';
    var body := if |t| > 0 && (t[0] == '+' || t[0] == '-') then t[1..] else t;
    var (mantissa, exponentPart) := Break(body, 'e', 'E');
    var (whole, fractionPart) := Break(mantissa, '.', '.');
    var fraction := if fractionPart == [] then [] else fractionPart[1..];
    var exponent := if exponentPart == [] then Some(0) else SignedInteger(exponentPart[1..]);
    if |whole| + |fraction| == 0 || !AllDigits(whole) || !AllDigits(fraction) || exponent.None? then
      None
    else
      var magnitude := (DigitsValue(whole) as real
                        + DigitsValue(fraction) as real / Pow10(|fraction|) as real)
                       * Scale(exponent.value);
      Some(if negative then -magnitude else magnitude)
  }

  /** A signed integer without blanks, as `float()` would read its exponent, reads as the same number as a decimal literal. */
  lemma DecimalLiteralOfInteger(t: string)
    requires SignedInteger(t).Some?
    ensures DecimalLiteral(t) == Some(SignedInteger(t).value as real)
  {
    var body := if t[0] == '+' || t[0] == '-' then t[1..] else t;
    assert |body| > 0 && AllDigits(body);
    BreakWhole(body, 'e', 'E');
    BreakWhole(body, '.', '.');
    assert Scale(0) == 1.0;
    var v: int := DigitsValue(body);
    assert SignedInteger(t).value == if t[0] == '-' then -v else v;
  }

  /** `float()` of a signed integer written without blanks gives the same number. */
  lemma ToFloatOfSignedInteger(t: string)
    requires SignedInteger(t).Some?
    ensures ToFloat(JStr(t)) == Ok(SignedInteger(t).value as real)
  {
    assert !IsSpace(t[0]) && !IsSpace(t[|t| - 1]);
    StripTrimmed(t);
    DecimalLiteralOfInteger(t);
    ToFloatOfStripped(t, SignedInteger(t).value as real);
  }

  lemma ToFloatOfStripped(s: string, x: real)
    requires DecimalLiteral(Strip(s)) == Some(x)
    ensures ToFloat(JStr(s)) == Ok(x)
  {
  }

  /** `int(x)` of a float: truncation toward zero. */
  function TruncateTowardZero(x: real): (n: int)
    ensures 0.0 <= x ==> 0 <= n && n as real <= x < n as real + 1.0
    ensures x < 0.0 ==> n <= 0 && n as real - 1.0 < x <= n as real
  {
    if x >= 0.0 then x.Floor else -((-x).Floor)
  }

  /** Python's `int(v)`: ValueError for a string that is not an integer, TypeError for a non-number. */
  function ToInt(v: Json): (r: Py<int>)
    ensures v.JInt? ==> r == Ok(v.i)
    ensures r.Raise? ==> r.exc == (if v.JStr? then ValueError else TypeError)
    ensures r.Raise? && r.exc == TypeError <==> v.JNull? || v.JArr? || v.JObj?
  {
    match v
    case JBool(b) => Ok(if b then 1 else 0)
    case JInt(i) => Ok(i)
    case JNum(x) => Ok(TruncateTowardZero(x))
    case JStr(s) =>
      (match IntLiteral(Strip(s))
       case Some(n) => Ok(n)
       case None => Raise(ValueError))  // invalid literal for int()
    case _ => Raise(TypeError)
  }

  /** Python's `float(v)`: ValueError for a string that is not a number, TypeError for a non-number. */
  function ToFloat(v: Json): (r: Py<real>)
    ensures v.JNum? ==> r == Ok(v.r)
    ensures v.JInt? ==> r == Ok(v.i as real)
    ensures r.Raise? ==> r.exc == (if v.JStr? then ValueError else TypeError)
    ensures r.Raise? && r.exc == TypeError <==> v.JNull? || v.JArr? || v.JObj?
  {
    match v
    case JBool(b) => Ok(if b then 1.0 else 0.0)
    case JInt(i) => Ok(i as real)
    case JNum(x) => Ok(x)
    case JStr(s) =>
      (match DecimalLiteral(Strip(s))
       case Some(x) => Ok(x)
       case None => Raise(ValueError))  // could not convert string to float
    case _ => Raise(TypeError)
  }
}

=== FILE: python_values.dfy ===
/**
 * The Python values the analysis code works on: the tree that the JSON
 * decoder builds from the analysis helper's report, the exceptions that
 * the code can raise, and the few built-in operations the code applies to
 * report nodes (`key in node`, `node[key]`, `for x in node`,
 * `node.iteritems()` and truth testing).
 *
 * Python's `None` and JSON `null` are the same value, so `JNull` stands for
 * both. A dict is a sequence of key/value pairs; as in a Python dict its keys
 * are taken to be distinct, a lookup takes the first pair with the key and
 * iteration follows the sequence order.
 */
module PyValues {

  datatype Option<+T> = None | Some(value: T)

  /** The exceptions the modelled code can raise. */
  datatype Exc = TypeError | ValueError | KeyError | AttributeError | OverflowError

  /** The outcome of evaluating Python code: a value, or a raised exception. */
  datatype Py<+T> = Ok(value: T) | Raise(exc: Exc) {
    predicate IsFailure() { Raise? }

    function PropagateFailure<U>(): Py<U>
      requires Raise?
    {
      Raise(exc)
    }

    function Extract(): T
      requires Ok?
    {
      value
    }
  }

  datatype Json =
    | JNull
    | JBool(b: bool)
    | JInt(i: int)
    | JNum(r: real)
    | JStr(s: string)
    | JArr(items: seq<Json>)
    | JObj(fields: seq<(string, Json)>)

  /** The value stored under `key` in a dict's pairs, if any. */
  function Lookup(fields: seq<(string, Json)>, key: string): (r: Option<Json>)
    ensures r.None? <==> forall i :: 0 <= i < |fields| ==> fields[i].0 != key
    ensures r.Some? ==> exists i :: 0 <= i < |fields| && fields[i] == (key, r.value)
  {
    if fields == [] then None
    else if fields[0].0 == key then Some(fields[0].1)
    else
      var r := Lookup(fields[1..], key);
      assert r.Some? ==> exists i :: 0 <= i < |fields[1..]| && fields[1..][i] == (key, r.value);
      r
  }

  predicate IsPrefix(p: string, s: string) {
    |p| <= |s| && s[..|p|] == p
  }

  /** Python's `p in s` on two strings: `p` occurs in `s` as a contiguous run. */
  predicate IsSubstring(p: string, s: string)
    decreases |s|
  {
    IsPrefix(p, s) || (|s| > 0 && IsSubstring(p, s[1..]))
  }

  /** Python's `key in node` for a string key. */
  function Contains(node: Json, key: string): (r: Py<bool>)
    ensures node.JObj? ==> r == Ok(Lookup(node.fields, key).Some?)
    ensures r.Raise? <==> node.JNull? || node.JBool? || node.JInt? || node.JNum?
    ensures r.Raise? ==> r.exc == TypeError
  {
    match node
    case JObj(fields) => Ok(Lookup(fields, key).Some?)
    case JArr(items) => Ok(JStr(key) in items)
    case JStr(s) => Ok(IsSubstring(key, s))
    case _ => Raise(TypeError)  // argument of type ... is not iterable
  }

  /** Python's `node[key]` for a string key. */
  function Subscript(node: Json, key: string): (r: Py<Json>)
    ensures r.Ok? <==> node.JObj? && Lookup(node.fields, key).Some?
    ensures r.Ok? ==> Lookup(node.fields, key) == Some(r.value)
    ensures r.Raise? ==> r.exc == (if node.JObj? then KeyError else TypeError)
  {
    match node
    case JObj(fields) =>
      (match Lookup(fields, key)
       case Some(v) => Ok(v)
       case None => Raise(KeyError))
    case _ => Raise(TypeError)  // list and string indices must be integers
  }

  /** The elements a Python `for` loop visits: list items, dict keys, or characters. */
  function Iterate(node: Json): (r: Py<seq<Json>>)
    ensures node.JArr? ==> r == Ok(node.items)
    ensures r.Raise? <==> node.JNull? || node.JBool? || node.JInt? || node.JNum?
    ensures r.Raise? ==> r.exc == TypeError
    ensures node.JObj? ==>
              && |r.value| == |node.fields|
              && forall i :: 0 <= i < |node.fields| ==> r.value[i] == JStr(node.fields[i].0)
    ensures node.JStr? ==>
              && |r.value| == |node.s|
              && forall i :: 0 <= i < |node.s| ==> r.value[i] == JStr([node.s[i]])
  {
    match node
    case JArr(items) => Ok(items)
    case JObj(fields) => Ok(seq(|fields|, i requires 0 <= i < |fields| => JStr(fields[i].0)))
    case JStr(s) => Ok(seq(|s|, i requires 0 <= i < |s| => JStr([s[i]])))
    case _ => Raise(TypeError)  // object is not iterable
  }

  /** Python 2's `node.iteritems()`: only a dict has the method. */
  function IterItems(node: Json): (r: Py<seq<(string, Json)>>)
    ensures r.Ok? <==> node.JObj?
    ensures r.Ok? ==> r.value == node.fields
    ensures r.Raise? ==> r.exc == AttributeError
  {
    match node
    case JObj(fields) => Ok(fields)
    case _ => Raise(AttributeError)
  }

  /**
   * Python truth testing (`if not root`): false exactly for None, False, a
   * numeric zero and an empty string, list or dict.
   */
  function Truthy(node: Json): (r: bool)
    ensures !r <==> node in [JNull, JBool(false), JInt(0), JNum(0.0), JStr(""), JArr([]), JObj([])]
  {
    match node
    case JNull => false
    case JBool(b) => b
    case JInt(i) => i != 0
    case JNum(r) => r != 0.0
    case JStr(s) => |s| > 0
    case JArr(items) => |items| > 0
    case JObj(fields) => |fields| > 0
  }
}

=== FILE: readers.dfy ===
/**
 * The guarded field readers of the analysis ingestion: each takes a node of
 * the analysis helper's report (or None) and returns the field it names, or
 * None when the field is missing or, for numbers and timestamps, malformed.
 * A reader raises only what the corresponding Python code lets escape.
 */
module Readers {
  import opened PyValues
  import opened PyNumbers
  import opened Timestamps
  import opened Text

  /** A geographic point, as `Location(latitude=..., longitude=...)`. */
  datatype Location = Location(latitude: real, longitude: real)

  /** `float(node[key])` under `try ... except ValueError`, once `key in node` has held. */
  function FloatOrNone(node: Json, key: string): (r: Py<Option<real>>)
    requires Contains(node, key) == Ok(true)
    ensures node.JObj? ==>
              var value := ToFloat(Lookup(node.fields, key).value);
              && (value.Ok? ==> r == Ok(Some(value.value)))
              && (value == Raise(ValueError) ==> r == Ok(None))
              && (value == Raise(TypeError) ==> r == Raise(TypeError))
    ensures !node.JObj? ==> r == Raise(TypeError)
    ensures r.Raise? ==> r.exc == TypeError
  {
    var value :- Subscript(node, key);
    match ToFloat(value)
    case Ok(x) => Ok(Some(x))
    case Raise(ValueError) => Ok(None)
    case Raise(e) => Raise(e)
  }

  /**
   * `read_location(node)`: a Location from the node's `latitude` and
   * `longitude`, or None when the node is None, lacks either key, or holds a
   * value `float()` rejects.
   */
  function ReadLocation(node: Json): (r: Py<Option<Location>>)
    ensures node.JNull? ==> r == Ok(None)
    ensures node.JObj? && (Lookup(node.fields, "latitude").None? || Lookup(node.fields, "longitude").None?) ==>
              r == Ok(None)
    ensures forall loc: Location ::
              r == Ok(Some(loc)) <==>
                && node.JObj?
                && Lookup(node.fields, "latitude").Some?
                && Lookup(node.fields, "longitude").Some?
                && ToFloat(Lookup(node.fields, "latitude").value) == Ok(loc.latitude)
                && ToFloat(Lookup(node.fields, "longitude").value) == Ok(loc.longitude)
    ensures node.JObj? && Lookup(node.fields, "latitude").Some? && Lookup(node.fields, "longitude").Some? ==>
              var lat, lon := ToFloat(Lookup(node.fields, "latitude").value), ToFloat(Lookup(node.fields, "longitude").value);
              (lat == Raise(ValueError) || (lat.Ok? && lon == Raise(ValueError))) ==> r == Ok(None)
    ensures r.Raise? ==> r.exc == TypeError
  {
    if node.JNull? then Ok(None)
    else
      var hasLatitude :- Contains(node, "latitude");
      if !hasLatitude then Ok(None)
      else
        // `in` raises only on a number or None, which the first test excluded
        var hasLongitude := Contains(node, "longitude").value;
        if !hasLongitude then Ok(None)
        else
          var latitude :- FloatOrNone(node, "latitude");
          if latitude.None? then Ok(None)
          else
            var longitude :- FloatOrNone(node, "longitude");
            if longitude.None? then Ok(None)
            else Ok(Some(Location(latitude.value, longitude.value)))
  }

  /** `import_location_attribute(node, name)`: `read_location(node[name])` when the node holds `name`. */
  function ImportLocationAttribute(node: Json, name: string): (r: Py<Option<Location>>)
    ensures node.JNull? ==> r == Ok(None)
    ensures node.JObj? && Lookup(node.fields, name).None? ==> r == Ok(None)
    ensures node.JObj? && Lookup(node.fields, name).Some? ==> r == ReadLocation(Lookup(node.fields, name).value)
    ensures r.Raise? ==> r.exc == TypeError
  {
    if node.JNull? then Ok(None)
    else
      var has :- Contains(node, name);
      if !has then Ok(None)
      else
        var location :- Subscript(node, name);
        ReadLocation(location)
  }

  /**
   * `datetime.strptime(value, ...)` under `except ValueError`. The argument is
   * converted to a C string: a text outside ASCII (a `unicode` value) fails to
   * encode with UnicodeEncodeError, a ValueError, read as None; an ASCII text
   * holding a NUL character raises TypeError; a format mismatch is a
   * ValueError, read as None.
   */
  function Strptime(value: Json): (r: Py<Option<DateTime>>)
    ensures r.Ok? <==> value.JStr? && !(IsAscii(value.s) && '\0' in value.s)
    ensures value.JStr? && !IsAscii(value.s) ==> r == Ok(None)
    ensures value.JStr? && IsAscii(value.s) && '\0' !in value.s ==> r == Ok(ParseIsoUtc(value.s))
    ensures r.Raise? ==> r.exc == TypeError
  {
    match value
    case JStr(s) =>
      if !IsAscii(s) then Ok(None)  // 'ascii' codec can't encode character
      else if '\0' in s then Raise(TypeError)  // argument 1 must be string without null bytes
      else Ok(ParseIsoUtc(s))
    case _ => Raise(TypeError)  // strptime() argument 1 must be string
  }

  /**
   * `import_datetime_attribute(node, name)`: the timestamp under `name`, or
   * None when the node is None, lacks `name`, or the text does not spell a
   * `YYYY-MM-DDTHH:MM:SSZ` instant. A string makes it raise only when it
   * is ASCII and holds a NUL character.
   */
  function ImportDatetimeAttribute(node: Json, name: string): (r: Py<Option<DateTime>>)
    ensures node.JNull? ==> r == Ok(None)
    ensures node.JObj? && Lookup(node.fields, name).None? ==> r == Ok(None)
    ensures node.JObj? && Lookup(node.fields, name).Some? && Lookup(node.fields, name).value.JStr? ==>
              var s := Lookup(node.fields, name).value.s;
              && (!IsAscii(s) ==> r == Ok(None))
              && (IsAscii(s) && '\0' in s ==> r == Raise(TypeError))
              && (IsAscii(s) && '\0' !in s ==> r == Ok(ParseIsoUtc(s)))
    ensures r.Raise? ==> r.exc == TypeError
  {
    if node.JNull? then Ok(None)
    else
      var has :- Contains(node, name);
      if !has then Ok(None)
      else
        var text :- Subscript(node, name);
        Strptime(text)
  }

  /** The timestamp the helper writes as `YYYY-MM-DDTHH:MM:SSZ` is read back exactly. */
  lemma ImportDatetimeRoundTrip(c: Civil, name: string)
    requires ValidCivil(c)
    ensures ImportDatetimeAttribute(JObj([(name, JStr(FormatIsoUtc(c)))]), name) == Ok(Some(ToSeconds(c)))
  {
    ParseFormatRoundTrip(c);
    FormatIsPlainAscii(c);
  }

  /** `root[key] if key in root else None`. */
  function NodeOrNone(root: Json, key: string): (r: Py<Json>)
    ensures root.JObj? ==> r == Ok(match Lookup(root.fields, key) case Some(v) => v case None => JNull)
  {
    var has :- Contains(root, key);
    if has then Subscript(root, key) else Ok(JNull)
  }

  /** `find_contest(root, name)`: `root['contests'][name]`, or None when either key is missing. */
  function FindContest(root: Json, name: string): (r: Py<Json>)
    ensures root.JObj? && Lookup(root.fields, "contests").None? ==> r == Ok(JNull)
    ensures root.JObj? && Lookup(root.fields, "contests").Some? && Lookup(root.fields, "contests").value.JObj? ==>
              r == Ok(match Lookup(Lookup(root.fields, "contests").value.fields, name) case Some(v) => v case None => JNull)
  {
    var hasContests :- Contains(root, "contests");
    if !hasContests then Ok(JNull)
    else
      var contests :- Subscript(root, "contests");
      var hasName :- Contains(contests, name);
      if !hasName then Ok(JNull) else Subscript(contests, name)
  }

  /** `find_trace(contest, name)`: `contest[name]`, or None when the key is missing. */
  function FindTrace(contest: Json, name: string): (r: Py<Json>)
    ensures contest.JObj? ==> r == Ok(match Lookup(contest.fields, name) case Some(v) => v case None => JNull)
  {
    var has :- Contains(contest, name);
    if !has then Ok(JNull) else Subscript(contest, name)
  }

  /** `timedelta(seconds=n)` raises OverflowError beyond 999999999 days either way. */
  predicate TimedeltaInRange(n: int) {
    -999999999 <= n / SecondsPerDay <= 999999999
  }

  /**
   * `read_time_of_day(turnpoint, flight)`: midnight of the takeoff date plus
   * `int(turnpoint['time'])` seconds, or None when the turnpoint has no
   * `time`. An offset of a day or more lands on a later date; a result
   * outside the datetime range raises OverflowError, and a missing takeoff
   * time raises AttributeError (`None.date()`).
   */
  function ReadTimeOfDay(turnpoint: Json, takeoff: Option<DateTime>): (r: Py<Option<DateTime>>)
    ensures turnpoint.JObj? && Lookup(turnpoint.fields, "time").None? ==> r == Ok(None)
    ensures turnpoint.JObj? && Lookup(turnpoint.fields, "time").Some? && takeoff.Some? ==>
              var offset := ToInt(Lookup(turnpoint.fields, "time").value);
              && (offset.Raise? ==> r == Raise(offset.exc))
              && (offset.Ok? && 0 <= Midnight(takeoff.value) + offset.value <= MaxDateTime ==>
                    r == Ok(Some(Midnight(takeoff.value) + offset.value)))
              && (offset.Ok? && !(0 <= Midnight(takeoff.value) + offset.value <= MaxDateTime) ==>
                    r == Raise(OverflowError))
    ensures r.Ok? && r.value.Some? ==>
              && takeoff.Some?
              && turnpoint.JObj? && Lookup(turnpoint.fields, "time").Some?
              && var offset := ToInt(Lookup(turnpoint.fields, "time").value);
              && offset.Ok?
              && r.value.value / SecondsPerDay == takeoff.value / SecondsPerDay + offset.value / SecondsPerDay
              && r.value.value % SecondsPerDay == offset.value % SecondsPerDay
  {
    var has :- Contains(turnpoint, "time");
    if !has then Ok(None)
    else
      var value :- Subscript(turnpoint, "time");
      var offset :- ToInt(value);
      if !TimedeltaInRange(offset) then Raise(OverflowError)
      else if takeoff.None? then Raise(AttributeError)
      else
        var time := Midnight(takeoff.value) + offset;
        if 0 <= time <= MaxDateTime then Ok(Some(time)) else Raise(OverflowError)
  }

  /**
   * Without a takeoff time, `read_time_of_day` on a turnpoint with a `time`
   * raises: `int()`'s exception, then OverflowError from `timedelta` for an
   * offset beyond 999999999 days, and otherwise AttributeError from
   * `None.date()`.
   */
  lemma ReadTimeOfDayWithoutTakeoff(turnpoint: Json)
    requires turnpoint.JObj? && Lookup(turnpoint.fields, "time").Some?
    ensures var offset, r := ToInt(Lookup(turnpoint.fields, "time").value), ReadTimeOfDay(turnpoint, None);
            && (offset.Raise? ==> r == Raise(offset.exc))
            && (offset.Ok? ==> r == Raise(if TimedeltaInRange(offset.value) then AttributeError else OverflowError))
  {
  }

  /**
   * An offset of a day or more rolls over to the next calendar date: an
   * offset of one day and `k` seconds after the takeoff's midnight is `k`
   * seconds into the next date, at the end of a month or a year too.
   */
  lemma TimeOfDayRollsOver(takeoff: Civil, k: int)
    requires ValidCivil(takeoff) && !(takeoff.year == 9999 && takeoff.month == 12 && takeoff.day == 31)
    requires 0 <= k < SecondsPerDay
    ensures ValidCivil(NextDate(takeoff).(hour := k / 3600, minute := k / 60 % 60, second := k % 60))
    ensures ReadTimeOfDay(JObj([("time", JInt(SecondsPerDay + k))]), Some(ToSeconds(takeoff)))
            == Ok(Some(ToSeconds(NextDate(takeoff).(hour := k / 3600, minute := k / 60 % 60, second := k % 60))))
  {
    DayNumberNext(takeoff);
    var next := NextDate(takeoff).(hour := k / 3600, minute := k / 60 % 60, second := k % 60);
    assert k / 3600 * 3600 + k / 60 % 60 * 60 + k % 60 == k;
    assert ToSeconds(next) == DayNumber(next) * SecondsPerDay + k;
    assert Midnight(ToSeconds(takeoff)) == DayNumber(takeoff) * SecondsPerDay;
  }
}

=== FILE: text.dfy ===
/**
 * Character-level helpers shared by the models of Python's `int()`,
 * `float()` and `datetime.strptime`: ASCII whitespace and digits, the value
 * of a run of decimal digits, and splitting a string at the first separator.
 */
module Text {

  /** The ASCII characters `str.isspace()` accepts: space, tab, LF, VT, FF, CR. */
  predicate IsSpace(c: char) {
    c == ' ' || 9 <= c as int <= 13
  }

  predicate IsDigit(c: char) {
    '0' <= c <= '9'
  }

  predicate AllDigits(s: string) {
    forall i :: 0 <= i < |s| ==> IsDigit(s[i])
  }

  function DigitValue(c: char): (d: nat)
    requires IsDigit(c)
    ensures d <= 9
  {
    (c as int) - ('0' as int)
  }

  function DigitChar(d: nat): (c: char)
    requires d <= 9
    ensures IsDigit(c) && DigitValue(c) == d
  {
    (('0' as int) + d) as char
  }

  function Pow10(n: nat): (p: nat)
    ensures p >= 1
  {
    if n == 0 then 1 else 10 * Pow10(n - 1)
  }

  /** The number a run of decimal digits denotes, most significant digit first. */
  function DigitsValue(s: string): nat
    requires AllDigits(s)
  {
    if s == [] then 0 else DigitsValue(s[..|s| - 1]) * 10 + DigitValue(s[|s| - 1])
  }

  /** A run of `k` digits denotes a number below `10^k`. */
  lemma {:induction false} DigitsValueBound(s: string)
    requires AllDigits(s)
    ensures DigitsValue(s) < Pow10(|s|)
  {
    if s != [] {
      DigitsValueBound(s[..|s| - 1]);
    }
  }

  /** Appending a digit multiplies the value by ten and adds the digit. */
  lemma DigitsValueSnoc(s: string, c: char)
    requires AllDigits(s) && IsDigit(c)
    ensures AllDigits(s + [c]) && DigitsValue(s + [c]) == DigitsValue(s) * 10 + DigitValue(c)
  {
    assert (s + [c])[..|s|] == s;
  }

  /** Every character of `s` is in the 7-bit ASCII range. */
  predicate IsAscii(s: string) {
    forall c :: c in s ==> c as int < 128
  }

  /** A run of digits is ASCII and holds no NUL character. */
  lemma DigitsArePlainAscii(s: string)
    requires AllDigits(s)
    ensures IsAscii(s) && '\0' !in s
  {
  }

  /** `s` without its leading whitespace. */
  function StripLeft(s: string): string {
    if s != [] && IsSpace(s[0]) then StripLeft(s[1..]) else s
  }

  /** `StripLeft` removes a prefix of blanks, and what it leaves does not start with a blank. */
  lemma {:induction false} StripLeftRemovesBlanks(s: string)
    ensures |StripLeft(s)| <= |s| && StripLeft(s) == s[|s| - |StripLeft(s)|..]
    ensures StripLeft(s) != [] ==> !IsSpace(StripLeft(s)[0])
    ensures forall i :: 0 <= i < |s| - |StripLeft(s)| ==> IsSpace(s[i])
  {
    if s != [] && IsSpace(s[0]) {
      var t := s[1..];
      StripLeftRemovesBlanks(t);
      assert StripLeft(s) == StripLeft(t);
      assert t[|t| - |StripLeft(t)|..] == s[|s| - |StripLeft(s)|..];
      forall i | 0 <= i < |s| - |StripLeft(s)|
        ensures IsSpace(s[i])
      {
        if i > 0 {
          assert s[i] == t[i - 1];
        }
      }
    }
  }

  /** Every character of `s` is whitespace. */
  predicate AllBlank(s: string) {
    s == [] || (IsSpace(s[0]) && AllBlank(s[1..]))
  }

  lemma {:induction false} AllBlankOfSpaces(s: string)
    requires forall i :: 0 <= i < |s| ==> IsSpace(s[i])
    ensures AllBlank(s)
  {
    if s != [] {
      AllBlankOfSpaces(s[1..]);
    }
  }

  /** The blanks `StripLeft` removes, as a prefix. */
  lemma LeadingBlanks(s: string) returns (lead: string)
    ensures AllBlank(lead) && s == lead + StripLeft(s)
  {
    StripLeftRemovesBlanks(s);
    lead := s[..|s| - |StripLeft(s)|];
    AllBlankOfSpaces(lead);
  }

  /** The blanks `StripRight` removes, as a suffix. */
  lemma TrailingBlanks(s: string) returns (trail: string)
    ensures AllBlank(trail) && s == StripRight(s) + trail
  {
    StripRightRemovesBlanks(s);
    trail := s[|StripRight(s)|..];
    AllBlankOfSpaces(trail);
  }

  /** Blanks before a text that does not start with one are exactly what `StripLeft` removes. */
  lemma {:induction false} StripLeftBlanks(blanks: string, s: string)
    requires AllBlank(blanks)
    requires s != [] ==> !IsSpace(s[0])
    ensures StripLeft(blanks + s) == s
  {
    if blanks == [] {
      assert blanks + s == s;
    } else {
      assert (blanks + s)[1..] == blanks[1..] + s;
      StripLeftBlanks(blanks[1..], s);
    }
  }

  /** A text with no blank at either end is its own `strip()`. */
  lemma StripTrimmed(t: string)
    requires t != [] && !IsSpace(t[0]) && !IsSpace(t[|t| - 1])
    ensures Strip(t) == t
  {
    assert StripLeft(t) == t;
  }

  /** `s` without its trailing whitespace. */
  function StripRight(s: string): string {
    if s != [] && IsSpace(s[|s| - 1]) then StripRight(s[..|s| - 1]) else s
  }

  /** `StripRight` removes a suffix of blanks, and what it leaves does not end with a blank. */
  lemma {:induction false} StripRightRemovesBlanks(s: string)
    ensures |StripRight(s)| <= |s| && StripRight(s) == s[..|StripRight(s)|]
    ensures StripRight(s) != [] ==> !IsSpace(StripRight(s)[|StripRight(s)| - 1])
    ensures forall i :: |StripRight(s)| <= i < |s| ==> IsSpace(s[i])
  {
    if s != [] && IsSpace(s[|s| - 1]) {
      var t := s[..|s| - 1];
      StripRightRemovesBlanks(t);
      assert StripRight(s) == StripRight(t);
      assert t[..|StripRight(t)|] == s[..|StripRight(s)|];
      forall i | |StripRight(s)| <= i < |s|
        ensures IsSpace(s[i])
      {
        if i < |s| - 1 {
          assert s[i] == t[i];
        }
      }
    }
  }

  lemma {:induction false} SpacesOfAllBlank(s: string)
    requires AllBlank(s)
    ensures forall i :: 0 <= i < |s| ==> IsSpace(s[i])
  {
    if s != [] {
      SpacesOfAllBlank(s[1..]);
      assert forall i :: 1 <= i < |s| ==> s[i] == s[1..][i - 1];
    }
  }

  /** Blanks after a text that does not end with one are exactly what `StripRight` removes. */
  lemma {:induction false} StripRightBlanks(s: string, blanks: string)
    requires forall i :: 0 <= i < |blanks| ==> IsSpace(blanks[i])
    requires s != [] ==> !IsSpace(s[|s| - 1])
    ensures StripRight(s + blanks) == s
  {
    if blanks == [] {
      assert s + blanks == s;
    } else {
      var t := s + blanks;
      assert t[|t| - 1] == blanks[|blanks| - 1];
      assert t[..|t| - 1] == s + blanks[..|blanks| - 1];
      StripRightBlanks(s, blanks[..|blanks| - 1]);
    }
  }

  /** `strip()` removes exactly the blanks around a text with no blank at either end. */
  lemma StripSurrounded(lead: string, t: string, trail: string)
    requires AllBlank(lead) && AllBlank(trail)
    requires t != [] && !IsSpace(t[0]) && !IsSpace(t[|t| - 1])
    ensures Strip(lead + t + trail) == t
  {
    assert lead + t + trail == lead + (t + trail);
    assert (t + trail)[0] == t[0];
    StripLeftBlanks(lead, t + trail);
    SpacesOfAllBlank(trail);
    StripRightBlanks(t, trail);
  }

  /** Python's `s.strip()` restricted to ASCII whitespace. */
  function Strip(s: string): string {
    StripRight(StripLeft(s))
  }

  /**
   * Splits `s` before the first occurrence of `a` or `b`: the first part holds
   * neither character, the second part is empty or starts with one of them.
   */
  function Break(s: string, a: char, b: char): (r: (string, string))
    ensures r.0 + r.1 == s
    ensures forall i :: 0 <= i < |r.0| ==> r.0[i] != a && r.0[i] != b
    ensures r.1 != [] ==> r.1[0] == a || r.1[0] == b
  {
    if s == [] then ([], [])
    else if s[0] == a || s[0] == b then ([], s)
    else
      var r := Break(s[1..], a, b);
      assert [s[0]] + r.0 + r.1 == s;
      ([s[0]] + r.0, r.1)
  }

  /** A text holding neither separator is not split. */
  lemma {:induction false} BreakWhole(s: string, a: char, b: char)
    requires forall i :: 0 <= i < |s| ==> s[i] != a && s[i] != b
    ensures Break(s, a, b) == (s, [])
  {
    if s != [] {
      BreakWhole(s[1..], a, b);
      assert [s[0]] + s[1..] == s;
    }
  }

  /** The split of `Break` is the only one with its two properties. */
  lemma {:induction false} BreakAt(x: string, rest: string, a: char, b: char)
    requires forall i :: 0 <= i < |x| ==> x[i] != a && x[i] != b
    requires rest != [] && (rest[0] == a || rest[0] == b)
    ensures Break(x + rest, a, b) == (x, rest)
  {
    if x == [] {
      assert x + rest == rest;
    } else {
      assert (x + rest)[0] == x[0];
      assert (x + rest)[1..] == x[1..] + rest;
      BreakAt(x[1..], rest, a, b);
      assert [x[0]] + x[1..] == x;
    }
  }
}

=== FILE: timestamps.dfy ===
/**
 * Python's naive `datetime` at whole-second precision, and
 * `datetime.strptime(text, '%Y-%m-%dT%H:%M:%SZ')` as Python 2.7 evaluates it.
 *
 * A datetime is the number of seconds since 0001-01-01T00:00:00 in the
 * proleptic Gregorian calendar, so `t / 86400` is the day (the ordinal of
 * `t.date()` less one) and `t % 86400` the second within that day.
 */
module Timestamps {
  import opened PyValues
  import opened Text

  const SecondsPerDay := 86400

  /** Days from 0001-01-01 to 10000-01-01. */
  const DaysInRange := 3652059

  /** 9999-12-31T23:59:59, the last whole second a datetime can hold. */
  const MaxDateTime := DaysInRange * SecondsPerDay - 1

  type DateTime = t: int | 0 <= t <= MaxDateTime

  predicate IsLeapYear(year: int) {
    year % 4 == 0 && (year % 100 != 0 || year % 400 == 0)
  }

  function DaysInYear(year: int): int {
    if IsLeapYear(year) then 366 else 365
  }

  function DaysInMonth(year: int, month: int): int
    requires 1 <= month <= 12
  {
    if month == 2 then (if IsLeapYear(year) then 29 else 28)
    else if month == 4 || month == 6 || month == 9 || month == 11 then 30
    else 31
  }

  /** Days of `year` that lie before the first of `month`. */
  function DaysBeforeMonth(year: int, month: int): int
    requires 1 <= month <= 12
  {
    [0, 31, 59, 90, 120, 151, 181, 212, 243, 273, 304, 334][month - 1]
    + (if month > 2 && IsLeapYear(year) then 1 else 0)
  }

  /** Days from 0001-01-01 to the first of January of `year`. */
  function DaysBeforeYear(year: int): int
    requires year >= 1
  {
    var p := year - 1;
    365 * p + p / 4 - p / 100 + p / 400
  }

  /** A broken-down date and time, as `datetime(year, month, day, hour, minute, second)`. */
  datatype Civil = Civil(year: int, month: int, day: int, hour: int, minute: int, second: int)

  /** The arguments the `datetime` constructor accepts. */
  predicate ValidCivil(c: Civil) {
    && 1 <= c.year <= 9999
    && 1 <= c.month <= 12
    && 1 <= c.day <= DaysInMonth(c.year, c.month)
    && 0 <= c.hour <= 23
    && 0 <= c.minute <= 59
    && 0 <= c.second <= 59
  }

  /**
   * Moving from year `year - 1` to `year` adds one multiple of 4, 100 or
   * 400 exactly when `year` is one, and a multiple of 400 is a multiple of
   * 100, which is a multiple of 4.
   */
  lemma LeapDivisors(year: int)
    requires year >= 1
    ensures year / 4 == (year - 1) / 4 + (if year % 4 == 0 then 1 else 0)
    ensures year / 100 == (year - 1) / 100 + (if year % 100 == 0 then 1 else 0)
    ensures year / 400 == (year - 1) / 400 + (if year % 400 == 0 then 1 else 0)
    ensures year % 400 == 0 ==> year % 100 == 0
    ensures year % 100 == 0 ==> year % 4 == 0
  {
  }

  lemma DaysBeforeYearStep(year: int)
    requires year >= 1
    ensures DaysBeforeYear(year + 1) == DaysBeforeYear(year) + DaysInYear(year)
  {
    LeapDivisors(year);
  }

  lemma {:induction false} DaysBeforeYearBound(year: int)
    requires 1 <= year <= 10000
    ensures 0 <= DaysBeforeYear(year) <= DaysInRange
    decreases 10000 - year
  {
    if year < 10000 {
      DaysBeforeYearBound(year + 1);
      DaysBeforeYearStep(year);
    }
  }

  /** The day of `c` counted from 0001-01-01 (`date.toordinal() - 1`). */
  function DayNumber(c: Civil): (n: int)
    requires ValidCivil(c)
    ensures 0 <= n < DaysInRange
  {
    DaysBeforeYearBound(c.year + 1);
    DaysBeforeYearStep(c.year);
    DaysBeforeYear(c.year) + DaysBeforeMonth(c.year, c.month) + c.day - 1
  }

  /** The calendar date after `c`'s: the next day of the month, the first of the next month, or New Year's Day. */
  function NextDate(c: Civil): Civil
    requires ValidCivil(c)
  {
    if c.day < DaysInMonth(c.year, c.month) then c.(day := c.day + 1)
    else if c.month < 12 then c.(month := c.month + 1, day := 1)
    else c.(year := c.year + 1, month := 1, day := 1)
  }

  /** Day numbers follow the calendar: the next date of any date but the last is the next day. */
  lemma DayNumberNext(c: Civil)
    requires ValidCivil(c) && !(c.year == 9999 && c.month == 12 && c.day == 31)
    ensures ValidCivil(NextDate(c))
    ensures DayNumber(NextDate(c)) == DayNumber(c) + 1
  {
    if c.day == DaysInMonth(c.year, c.month) && c.month == 12 {
      DaysBeforeYearStep(c.year);
    }
  }

  function ToSeconds(c: Civil): (t: DateTime)
    requires ValidCivil(c)
    ensures t / SecondsPerDay == DayNumber(c)
    ensures t % SecondsPerDay == c.hour * 3600 + c.minute * 60 + c.second
  {
    DayNumber(c) * SecondsPerDay + c.hour * 3600 + c.minute * 60 + c.second
  }

  /** Midnight of the day of `t`: `datetime.combine(t.date(), time(0, 0, 0))`. */
  function Midnight(t: DateTime): (m: DateTime)
    ensures m % SecondsPerDay == 0 && m <= t < m + SecondsPerDay
    ensures m / SecondsPerDay == t / SecondsPerDay
  {
    t - t % SecondsPerDay
  }

  // ----- datetime.strptime(text, '%Y-%m-%dT%H:%M:%SZ') -----

  /** `%Y` matches exactly four digits. */
  function YearField(t: string): (r: Option<int>)
    ensures r.Some? ==> 0 <= r.value <= 9999
  {
    if |t| == 4 && AllDigits(t) then
      DigitsValueBound(t);
      assert Pow10(4) == 10000;
      Some(DigitsValue(t))
    else None
  }

  /**
   * One or two digits whose value lies in `lo..hi`: the language of the
   * regular expressions for `%m` (1..12), `%H` (0..23), `%M` (0..59) and
   * `%S` (0..61).
   */
  function NumberField(t: string, lo: int, hi: int): (r: Option<int>)
    ensures r.Some? ==> lo <= r.value <= hi
  {
    if 1 <= |t| <= 2 && AllDigits(t) && lo <= DigitsValue(t) <= hi then Some(DigitsValue(t)) else None
  }

  /** `%d` also accepts a space followed by a non-zero digit. */
  function DayField(t: string): (r: Option<int>)
    ensures r.Some? ==> 1 <= r.value <= 31
  {
    if |t| == 2 && t[0] == ' ' && IsDigit(t[1]) && t[1] != '0' then Some(DigitValue(t[1]))
    else NumberField(t, 1, 31)
  }

  /** The texts between the separators of `YYYY-MM-DDTHH:MM:SSZ`, and the text from the final `Z` on. */
  datatype IsoTexts = IsoTexts(year: string, month: string, day: string, hour: string, minute: string,
                               second: string, rest: string)

  /**
   * The text cut at the separators: since no field can hold its separator,
   * each field ends at the first separator after the previous one. None when
   * a separator is missing.
   */
  function SplitIso(s: string): Option<IsoTexts> {
    var (yearText, afterYear) := Break(s, '-', '-');
    if afterYear == [] then None else
    var (monthText, afterMonth) := Break(afterYear[1..], '-', '-');
    if afterMonth == [] then None else
    var (dayText, afterDay) := Break(afterMonth[1..], 'T', 't');
    if afterDay == [] then None else
    var (hourText, afterHour) := Break(afterDay[1..], ':', ':');
    if afterHour == [] then None else
    var (minuteText, afterMinute) := Break(afterHour[1..], ':', ':');
    if afterMinute == [] then None else
    var (secondText, rest) := Break(afterMinute[1..], 'Z', 'z');
    Some(IsoTexts(yearText, monthText, dayText, hourText, minuteText, secondText, rest))
  }

  /**
   * The match of the regular expression strptime builds for the format: the
   * literal separators are matched without regard to case, every field has
   * the language above, and no text may follow the final `Z`.
   */
  function MatchIsoFormat(s: string): (r: Option<Civil>)
    ensures r.Some? ==>
              && 0 <= r.value.year <= 9999 && 1 <= r.value.month <= 12 && 1 <= r.value.day <= 31
              && 0 <= r.value.hour <= 23 && 0 <= r.value.minute <= 59 && 0 <= r.value.second <= 61
  {
    match SplitIso(s)
    case None => None
    case Some(t) =>
      var year, month, day := YearField(t.year), NumberField(t.month, 1, 12), DayField(t.day);
      var hour, minute, second := NumberField(t.hour, 0, 23), NumberField(t.minute, 0, 59), NumberField(t.second, 0, 61);
      if |t.rest| == 1 && year.Some? && month.Some? && day.Some? && hour.Some? && minute.Some? && second.Some? then
        Some(Civil(year.value, month.value, day.value, hour.value, minute.value, second.value))
      else
        None
  }

  /**
   * `datetime.strptime(s, '%Y-%m-%dT%H:%M:%SZ')`, with None for the
   * ValueError it raises when the text does not match or names no real
   * instant (year 0, a day past the end of its month, second 60 or 61).
   */
  function ParseIsoUtc(s: string): (r: Option<DateTime>)
    ensures MatchIsoFormat(s).None? ==> r.None?
    ensures MatchIsoFormat(s).Some? ==> (r.Some? <==> ValidCivil(MatchIsoFormat(s).value))
    ensures r.Some? ==> exists c :: ValidCivil(c) && MatchIsoFormat(s) == Some(c) && r.value == ToSeconds(c)
  {
    match MatchIsoFormat(s)
    case None => None
    case Some(c) =>
      if ValidCivil(c) then Some(ToSeconds(c)) else None
  }

  // ----- The canonical spelling, and the round trip through strptime -----

  function Pad2(n: int): (t: string)
    requires 0 <= n <= 99
    ensures |t| == 2 && AllDigits(t)
  {
    [DigitChar(n / 10), DigitChar(n % 10)]
  }

  function Pad4(n: int): (t: string)
    requires 0 <= n <= 9999
    ensures |t| == 4 && AllDigits(t)
  {
    Pad2(n / 100) + Pad2(n % 100)
  }

  /** `c` spelled as `YYYY-MM-DDTHH:MM:SSZ`, the form the analysis helper writes. */
  function FormatIsoUtc(c: Civil): string
    requires ValidCivil(c)
  {
    Pad4(c.year) + ("-" + (Pad2(c.month) + ("-" + (Pad2(c.day) + ("T" +
    (Pad2(c.hour) + (":" + (Pad2(c.minute) + (":" + (Pad2(c.second) + "Z"))))))))))
  }

  lemma Pad2Value(n: int)
    requires 0 <= n <= 99
    ensures DigitsValue(Pad2(n)) == n
  {
    var t := Pad2(n);
    assert t[..1][..0] == [];
    assert t[..|t| - 1] == t[..1];
    assert DigitsValue(t[..1]) == DigitValue(t[0]);
  }

  lemma Pad4Value(n: int)
    requires 0 <= n <= 9999
    ensures DigitsValue(Pad4(n)) == n
  {
    Pad2Value(n / 100);
    Pad2Value(n % 100);
    DigitsValueTwoMore(Pad2(n / 100), Pad2(n % 100));
  }

  /** Two more digits after `s` multiply its value by a hundred and add theirs. */
  lemma DigitsValueTwoMore(s: string, u: string)
    requires AllDigits(s) && AllDigits(u) && |u| == 2
    ensures AllDigits(s + u) && DigitsValue(s + u) == DigitsValue(s) * 100 + DigitsValue(u)
  {
    DigitsValueSnoc(s, u[0]);
    DigitsValueSnoc(s + [u[0]], u[1]);
    assert s + u == s + [u[0]] + [u[1]];
    assert u[..1][..0] == [];
    assert u[..|u| - 1] == u[..1];
    assert DigitsValue(u[..1]) == DigitValue(u[0]);
  }

  /** One step of the match: the separator after a field of digits. */
  lemma BreakAfterDigits(field: string, sep: string, rest: string, a: char, b: char)
    requires AllDigits(field) && |sep| == 1 && (sep[0] == a || sep[0] == b)
    requires !IsDigit(a) && !IsDigit(b)
    ensures Break(field + (sep + rest), a, b) == (field, sep + rest)
    ensures (sep + rest)[1..] == rest
  {
    BreakAt(field, sep + rest, a, b);
  }

  /** Fields of digits joined by the format's separators are cut apart again at them. */
  lemma SplitJoinedFields(year: string, month: string, day: string, hour: string, minute: string, second: string)
    requires AllDigits(year) && AllDigits(month) && AllDigits(day)
    requires AllDigits(hour) && AllDigits(minute) && AllDigits(second)
    ensures SplitIso(year + ("-" + (month + ("-" + (day + ("T" +
              (hour + (":" + (minute + (":" + (second + "Z")))))))))))
            == Some(IsoTexts(year, month, day, hour, minute, second, "Z"))
  {
    var ss := second + "Z";
    var mm := minute + (":" + ss);
    var hh := hour + (":" + mm);
    var dd := day + ("T" + hh);
    var mo := month + ("-" + dd);
    BreakAfterDigits(year, "-", mo, '-', '-');
    BreakAfterDigits(month, "-", dd, '-', '-');
    BreakAfterDigits(day, "T", hh, 'T', 't');
    BreakAfterDigits(hour, ":", mm, ':', ':');
    BreakAfterDigits(minute, ":", ss, ':', ':');
    BreakAt(second, "Z", 'Z', 'z');
  }

  /** Cutting the canonical spelling at its separators gives back the padded fields. */
  lemma SplitCanonical(c: Civil)
    requires ValidCivil(c)
    ensures SplitIso(FormatIsoUtc(c)) ==
              Some(IsoTexts(Pad4(c.year), Pad2(c.month), Pad2(c.day), Pad2(c.hour), Pad2(c.minute), Pad2(c.second), "Z"))
  {
    SplitJoinedFields(Pad4(c.year), Pad2(c.month), Pad2(c.day), Pad2(c.hour), Pad2(c.minute), Pad2(c.second));
  }

  /** The match of the format on the canonical spelling recovers every field. */
  lemma MatchCanonical(c: Civil)
    requires ValidCivil(c)
    ensures MatchIsoFormat(FormatIsoUtc(c)) == Some(c)
  {
    SplitCanonical(c);
    Pad4Value(c.year);
    Pad2Value(c.month);
    Pad2Value(c.day);
    Pad2Value(c.hour);
    Pad2Value(c.minute);
    Pad2Value(c.second);
    assert DayField(Pad2(c.day)) == Some(c.day);
  }

  /** Parsing the canonical spelling of a datetime gives that datetime back. */
  lemma ParseFormatRoundTrip(c: Civil)
    requires ValidCivil(c)
    ensures ParseIsoUtc(FormatIsoUtc(c)) == Some(ToSeconds(c))
  {
    MatchCanonical(c);
  }

  /** The canonical spelling is made of digits and separators: ASCII, with no NUL character. */
  lemma FormatIsPlainAscii(c: Civil)
    requires ValidCivil(c)
    ensures IsAscii(FormatIsoUtc(c)) && '\0' !in FormatIsoUtc(c)
  {
    DigitsArePlainAscii(Pad4(c.year));
    DigitsArePlainAscii(Pad2(c.month));
    DigitsArePlainAscii(Pad2(c.day));
    DigitsArePlainAscii(Pad2(c.hour));
    DigitsArePlainAscii(Pad2(c.minute));
    DigitsArePlainAscii(Pad2(c.second));
  }
}

=== FILE: traces.dfy ===
/**
 * What `save_trace`, `save_contest` and `save_contests` do to a flight's
 * list of contest traces, stated as functions of the report: the traces they
 * append, in order, and whether they end by raising. The methods that
 * perform the appends are proved against these functions.
 */
module Traces {
  import opened PyValues
  import opened Timestamps
  import opened Readers

  /**
   * A `Trace` row: the contest and trace it was built for, and the parallel
   * locations and times of its turnpoints.
   */
  datatype ContestTrace = ContestTrace(
    contestType: string,
    traceType: string,
    locations: seq<Location>,
    times: seq<DateTime>)
  {
    /** A stored trace has as many times as locations, and at least two of each. */
    predicate Valid() {
      |locations| == |times| >= 2
    }
  }

  // ----- The loop of save_trace over the turnpoints -----

  /** What one iteration of the loop makes of a turnpoint: a point, nothing, or an exception. */
  type PointResult = Py<Option<(Location, DateTime)>>

  /**
   * One iteration of the loop in `save_trace`: `read_location`, then
   * `read_time_of_day`, and the pair when both are set.
   */
  function ReadPoint(turnpoint: Json, takeoff: Option<DateTime>): PointResult {
    var location :- ReadLocation(turnpoint);
    var time :- ReadTimeOfDay(turnpoint, takeoff);
    if location.None? || time.None? then Ok(None) else Ok(Some((location.value, time.value)))
  }

  /**
   * A turnpoint yields a point exactly when both readers return a value, and
   * the point is made of those values; the location reader raises first.
   */
  lemma ReadPointMeaning(turnpoint: Json, takeoff: Option<DateTime>)
    ensures var point, location, time := ReadPoint(turnpoint, takeoff), ReadLocation(turnpoint), ReadTimeOfDay(turnpoint, takeoff);
            && (location.Raise? ==> point == Raise(location.exc))
            && (location.Ok? && time.Raise? ==> point == Raise(time.exc))
            && (location.Ok? && time.Ok? ==>
                  && point.Ok?
                  && (point.value.Some? <==> location.value.Some? && time.value.Some?)
                  && (point.value.Some? ==> point.value.value == (location.value.value, time.value.value)))
  {
  }

  /** What the loop makes of each turnpoint, in order. */
  function PointResults(turnpoints: seq<Json>, takeoff: Option<DateTime>): seq<PointResult> {
    seq(|turnpoints|, i requires 0 <= i < |turnpoints| => ReadPoint(turnpoints[i], takeoff))
  }

  /**
   * The `locations` and `times` lists the loop has built after iterations
   * with these results, or the exception that ended it.
   */
  function Gather(results: seq<PointResult>): (r: Py<(seq<Location>, seq<DateTime>)>)
    ensures r.Ok? ==> |r.value.0| == |r.value.1| <= |results|
  {
    if results == [] then Ok(([], []))
    else
      var before :- Gather(results[..|results| - 1]);
      var point :- results[|results| - 1];
      if point.None? then Ok(before)
      else Ok((before.0 + [point.value.0], before.1 + [point.value.1]))
  }

  /** The positions of the iterations that yield a point, in increasing order. */
  function KeptPositions(results: seq<PointResult>): seq<int> {
    if results == [] then []
    else
      var last := results[|results| - 1];
      KeptPositions(results[..|results| - 1]) + (if last.Ok? && last.value.Some? then [|results| - 1] else [])
  }

  /**
   * The loop raises exactly when some iteration raises, and then with the
   * first iteration's exception.
   */
  lemma {:induction false} GatherOutcome(results: seq<PointResult>)
    ensures Gather(results).Ok? <==> forall i :: 0 <= i < |results| ==> results[i].Ok?
    ensures Gather(results).Raise? ==>
              exists i :: && 0 <= i < |results|
                          && results[i] == Raise(Gather(results).exc)
                          && forall k :: 0 <= k < i ==> results[k].Ok?
  {
    if results != [] {
      var n := |results| - 1;
      var prefix := results[..n];
      GatherOutcome(prefix);
      assert forall i :: 0 <= i < n ==> prefix[i] == results[i];
      if Gather(prefix).Ok? && results[n].Raise? {
        assert forall k :: 0 <= k < n ==> results[k].Ok?;
      }
    }
  }

  /** The kept positions are in range, increasing, and exactly those of the iterations that yield a point. */
  lemma {:induction false} KeptPositionsOrdered(results: seq<PointResult>)
    ensures var kept := KeptPositions(results);
            && (forall j :: 0 <= j < |kept| ==> 0 <= kept[j] < |results|)
            && (forall j, k :: 0 <= j < k < |kept| ==> kept[j] < kept[k])
            && (forall i :: 0 <= i < |results| ==> (i in kept <==> results[i].Ok? && results[i].value.Some?))
  {
    if results != [] {
      var n := |results| - 1;
      var prefix := results[..n];
      KeptPositionsOrdered(prefix);
      assert forall i :: 0 <= i < n ==> prefix[i] == results[i];
    }
  }

  /**
   * When the loop completes, it holds one point per kept position, and
   * entry `j` of both lists is the point of the `j`th kept iteration.
   */
  lemma {:induction false} GatherKeepsPoints(results: seq<PointResult>)
    requires Gather(results).Ok?
    ensures var locations, times := Gather(results).value.0, Gather(results).value.1;
            var kept := KeptPositions(results);
            && |locations| == |times| == |kept|
            && (forall j :: 0 <= j < |kept| ==> 0 <= kept[j] < |results|)
            && (forall j :: 0 <= j < |kept| ==> results[kept[j]] == Ok(Some((locations[j], times[j]))))
  {
    KeptPositionsOrdered(results);
    if results != [] {
      var n := |results| - 1;
      var prefix := results[..n];
      GatherKeepsPoints(prefix);
      KeptPositionsOrdered(prefix);
      var kept := KeptPositions(prefix);
      var before := Gather(prefix).value;
      var after := Gather(results).value;
      assert forall j :: 0 <= j < |kept| ==> results[kept[j]] == prefix[kept[j]];
      if results[n].value.Some? {
        assert KeptPositions(results) == kept + [n];
        assert after.0 == before.0 + [results[n].value.value.0];
        assert after.1 == before.1 + [results[n].value.value.1];
      } else {
        assert KeptPositions(results) == kept;
        assert after == before;
      }
    }
  }

  /** Once the loop has raised, later iterations change nothing. */
  lemma {:induction false} GatherRaisePersists(results: seq<PointResult>, i: nat)
    requires i <= |results|
    requires Gather(results[..i]).Raise?
    ensures Gather(results) == Gather(results[..i])
    decreases |results| - i
  {
    if i < |results| {
      var prefix := results[..|results| - 1];
      assert prefix[..i] == results[..i];
      GatherRaisePersists(prefix, i);
    } else {
      assert results[..i] == results;
    }
  }

  /**
   * The trace `save_trace` builds for one (contest, trace) pair: None when
   * the trace has no `turnpoints` or fewer than two of them survive.
   */
  function BuildTrace(contestName: string, traceName: string, trace: Json, takeoff: Option<DateTime>)
    : (r: Py<Option<ContestTrace>>)
    ensures trace.JObj? && Lookup(trace.fields, "turnpoints").None? ==> r == Ok(None)
    ensures r.Ok? && r.value.Some? ==>
              && r.value.value.Valid()
              && r.value.value.contestType == contestName
              && r.value.value.traceType == traceName
  {
    var hasTurnpoints :- Contains(trace, "turnpoints");
    if !hasTurnpoints then Ok(None)
    else
      var node :- Subscript(trace, "turnpoints");
      var turnpoints :- Iterate(node);
      var points :- Gather(PointResults(turnpoints, takeoff));
      if |points.0| < 2 || |points.1| < 2 then Ok(None)
      else Ok(Some(ContestTrace(contestName, traceName, points.0, points.1)))
  }

  /**
   * `save_trace` on a trace whose `turnpoints` is a list none of whose
   * points makes a reader raise: a turnpoint is kept exactly when it yields
   * a point (by `ReadPointMeaning`, when both its location and its time are
   * set), and one trace is appended exactly when at least two are kept.
   * That trace carries the given names and, at position `j` of both lists,
   * the location and time of the `j`th kept turnpoint, kept turnpoints being
   * in their original order.
   */
  lemma SaveTraceKeepsResolvedTurnpoints(contestName: string, traceName: string, fields: seq<(string, Json)>,
                                         turnpoints: seq<Json>, takeoff: Option<DateTime>)
    requires Lookup(fields, "turnpoints") == Some(JArr(turnpoints))
    requires forall i :: 0 <= i < |turnpoints| ==> ReadPoint(turnpoints[i], takeoff).Ok?
    ensures var e, kept := TraceEffect(contestName, traceName, JObj(fields), takeoff),
                           KeptPositions(PointResults(turnpoints, takeoff));
            && e.outcome == Ok(())
            && (forall i :: 0 <= i < |turnpoints| ==> (i in kept <==> ReadPoint(turnpoints[i], takeoff).value.Some?))
            && (forall j, k :: 0 <= j < k < |kept| ==> kept[j] < kept[k])
            && (|kept| < 2 ==> e.added == [])
            && (|kept| >= 2 ==>
                  && |e.added| == 1
                  && e.added[0].contestType == contestName
                  && e.added[0].traceType == traceName
                  && |e.added[0].locations| == |e.added[0].times| == |kept|
                  && forall j :: 0 <= j < |kept| ==>
                       && 0 <= kept[j] < |turnpoints|
                       && ReadPoint(turnpoints[kept[j]], takeoff) == Ok(Some((e.added[0].locations[j], e.added[0].times[j]))))
  {
    var results := PointResults(turnpoints, takeoff);
    assert Subscript(JObj(fields), "turnpoints") == Ok(JArr(turnpoints));
    assert Iterate(JArr(turnpoints)) == Ok(turnpoints);
    GatherOutcome(results);
    var points := Gather(results).value;
    assert BuildTrace(contestName, traceName, JObj(fields), takeoff) ==
           if |points.0| < 2 || |points.1| < 2 then Ok(None) else Ok(Some(ContestTrace(contestName, traceName, points.0, points.1)));
    GatherKeepsPoints(results);
    KeptPositionsOrdered(results);
  }

  // ----- The traces appended by save_trace, save_contest and save_contests -----

  /** The traces a call appends to `flight.traces`, and whether it ends by raising. */
  datatype Effect = Effect(added: seq<ContestTrace>, outcome: Py<()>) {
    /** This call followed by `next`, unless this one raised. */
    function Then(next: Effect): Effect {
      if outcome.Raise? then this else Effect(added + next.added, next.outcome)
    }
  }

  const NoEffect := Effect([], Ok(()))

  /**
   * A loop whose iterations make these calls in turn: the loop stops at the
   * first call that raises, and appends what the calls up to it appended.
   */
  function Chain(effects: seq<Effect>): Effect {
    if effects == [] then NoEffect else effects[0].Then(Chain(effects[1..]))
  }

  lemma ThenAssociative(a: Effect, b: Effect, c: Effect)
    ensures a.Then(b).Then(c) == a.Then(b.Then(c))
  {
    if a.outcome.Ok? && b.outcome.Ok? {
      assert a.added + b.added + c.added == a.added + (b.added + c.added);
    }
  }

  /** Running two loops in turn is running one loop over both lists of calls. */
  lemma {:induction false} ChainAppend(a: seq<Effect>, b: seq<Effect>)
    ensures Chain(a + b) == Chain(a).Then(Chain(b))
  {
    if a == [] {
      assert a + b == b;
      assert [] + Chain(b).added == Chain(b).added;
    } else {
      assert (a + b)[1..] == a[1..] + b;
      ChainAppend(a[1..], b);
      ThenAssociative(a[0], Chain(a[1..]), Chain(b));
    }
  }

  /** One turn of such a loop. */
  lemma ChainStep(effects: seq<Effect>, i: nat)
    requires i < |effects|
    ensures Chain(effects[..i + 1]) == Chain(effects[..i]).Then(effects[i])
  {
    var e := effects[i];
    assert effects[..i + 1] == effects[..i] + [e];
    ChainAppend(effects[..i], [e]);
    assert Chain([e]) == e by {
      assert [e][1..] == [];
      assert e.added + [] == e.added;
      if e.outcome.Ok? {
        var u: () := e.outcome.value;
        assert u == ();
      }
    }
  }

  /**
   * One turn of such a loop, seen from the list it appends to: a turn that
   * starts with the earlier calls' traces appended ends with this call's
   * traces appended as well.
   */
  lemma ChainStepAppends(effects: seq<Effect>, i: nat, start: seq<ContestTrace>, done: seq<ContestTrace>,
                         after: seq<ContestTrace>)
    requires i < |effects|
    requires Chain(effects[..i]).outcome == Ok(())
    requires done == start + Chain(effects[..i]).added
    requires after == done + effects[i].added
    ensures after == start + Chain(effects[..i + 1]).added
    ensures Chain(effects[..i + 1]).outcome == effects[i].outcome
    ensures effects[i].outcome.Ok? ==> Chain(effects[..i + 1]).outcome == Ok(())
  {
    ChainStep(effects, i);
    if effects[i].outcome.Ok? {
      var u: () := effects[i].outcome.value;
      assert u == ();
    }
  }

  /** Once the loop has raised, later iterations change nothing. */
  lemma ChainRaisePersists(effects: seq<Effect>, i: nat)
    requires i <= |effects|
    requires Chain(effects[..i]).outcome.Raise?
    ensures Chain(effects) == Chain(effects[..i])
  {
    assert effects == effects[..i] + effects[i..];
    ChainAppend(effects[..i], effects[i..]);
  }

  /** What holds of every trace each call appends holds of every trace the loop appends. */
  lemma {:induction false} ChainKeeps(effects: seq<Effect>, p: ContestTrace -> bool)
    requires forall k, j :: 0 <= k < |effects| && 0 <= j < |effects[k].added| ==> p(effects[k].added[j])
    ensures forall i :: 0 <= i < |Chain(effects).added| ==> p(Chain(effects).added[i])
  {
    if effects != [] {
      var rest := effects[1..];
      assert forall k :: 0 <= k < |rest| ==> rest[k] == effects[k + 1];
      ChainKeeps(rest, p);
      var first, after := effects[0], Chain(rest);
      if first.outcome.Ok? {
        assert forall i :: 0 <= i < |first.added| ==> p(first.added[i]);
        var all := first.added + after.added;
        assert forall i :: |first.added| <= i < |all| ==> all[i] == after.added[i - |first.added|];
      }
    }
  }

  /** `save_trace(contest_name, trace_name, trace, flight)`. */
  function TraceEffect(contestName: string, traceName: string, trace: Json, takeoff: Option<DateTime>): (e: Effect)
    ensures |e.added| <= 1
    ensures forall i :: 0 <= i < |e.added| ==> e.added[i].Valid() && e.added[i].contestType == contestName && e.added[i].traceType == traceName
  {
    match BuildTrace(contestName, traceName, trace, takeoff)
    case Raise(x) => Effect([], Raise(x))
    case Ok(None) => NoEffect
    case Ok(Some(t)) => Effect([t], Ok(()))
  }

  /** The calls the loop of `save_contest` makes, one per (trace name, trace) pair. */
  function TraceEffects(contestName: string, pairs: seq<(string, Json)>, takeoff: Option<DateTime>): (r: seq<Effect>)
    ensures |r| == |pairs|
  {
    seq(|pairs|, i requires 0 <= i < |pairs| => TraceEffect(contestName, pairs[i].0, pairs[i].1, takeoff))
  }

  /** `save_contest(contest_name, traces, flight)`: `traces.iteritems()` needs a dict. */
  function ContestEffect(contestName: string, traces: Json, takeoff: Option<DateTime>): (e: Effect)
    ensures !traces.JObj? ==> e == Effect([], Raise(AttributeError))
  {
    match IterItems(traces)
    case Raise(x) => Effect([], Raise(x))
    case Ok(pairs) => Chain(TraceEffects(contestName, pairs, takeoff))
  }

  /** Every trace `save_contest` appends is a valid trace of that contest. */
  lemma ContestEffectValid(contestName: string, traces: Json, takeoff: Option<DateTime>)
    ensures var e := ContestEffect(contestName, traces, takeoff);
            forall i :: 0 <= i < |e.added| ==> e.added[i].Valid() && e.added[i].contestType == contestName
  {
    if traces.JObj? {
      ChainKeeps(TraceEffects(contestName, traces.fields, takeoff),
                 (t: ContestTrace) => t.Valid() && t.contestType == contestName);
    }
  }

  /** The calls the loop of `save_contests` makes, one per (contest name, traces) pair. */
  function ContestEffects(contests: seq<(string, Json)>, takeoff: Option<DateTime>): (r: seq<Effect>)
    ensures |r| == |contests|
  {
    seq(|contests|, i requires 0 <= i < |contests| => ContestEffect(contests[i].0, contests[i].1, takeoff))
  }

  /**
   * `save_contests(root, flight)`: nothing without a `contests` key or a
   * takeoff time, otherwise every contest in turn.
   */
  function ContestsEffect(root: Json, takeoff: Option<DateTime>): (e: Effect)
    ensures root.JObj? && (Lookup(root.fields, "contests").None? || takeoff.None?) ==> e == NoEffect
    ensures takeoff.None? ==> e.added == []
  {
    match Contains(root, "contests")
    case Raise(x) => Effect([], Raise(x))
    case Ok(hasContests) =>
      if !hasContests || takeoff.None? then NoEffect
      else
        match Subscript(root, "contests")
        case Raise(x) => Effect([], Raise(x))
        case Ok(node) =>
          match IterItems(node)
          case Raise(x) => Effect([], Raise(x))
          case Ok(contests) => Chain(ContestEffects(contests, takeoff))
  }

  /** Every trace `save_contests` appends is valid: at least two turnpoints, a time for each location. */
  lemma ContestsEffectValid(root: Json, takeoff: Option<DateTime>)
    ensures var e := ContestsEffect(root, takeoff);
            forall i :: 0 <= i < |e.added| ==> e.added[i].Valid()
  {
    if root.JObj? && Lookup(root.fields, "contests").Some? && takeoff.Some? {
      var node := Lookup(root.fields, "contests").value;
      if node.JObj? {
        var effects := ContestEffects(node.fields, takeoff);
        forall k | 0 <= k < |effects|
          ensures forall j :: 0 <= j < |effects[k].added| ==> effects[k].added[j].Valid()
        {
          ContestEffectValid(node.fields[k].0, node.fields[k].1, takeoff);
        }
        ChainKeeps(effects, (t: ContestTrace) => t.Valid());
      }
    }
  }

  // ----- Which (contest, trace) pairs the appended traces come from -----

  /** `a` can be obtained from `b` by deleting elements. */
  predicate IsSubsequence<T(==)>(a: seq<T>, b: seq<T>)
    decreases |b|
  {
    || a == []
    || (&& b != []
        && (|| (a[|a| - 1] == b[|b| - 1] && IsSubsequence(a[..|a| - 1], b[..|b| - 1]))
            || IsSubsequence(a, b[..|b| - 1])))
  }

  lemma {:induction false} SubsequenceLength<T>(a: seq<T>, b: seq<T>)
    requires IsSubsequence(a, b)
    ensures |a| <= |b|
    decreases |b|
  {
    if a != [] {
      if a[|a| - 1] == b[|b| - 1] && IsSubsequence(a[..|a| - 1], b[..|b| - 1]) {
        SubsequenceLength(a[..|a| - 1], b[..|b| - 1]);
      } else {
        SubsequenceLength(a, b[..|b| - 1]);
      }
    }
  }

  lemma {:induction false} SubsequenceExtend<T>(a: seq<T>, b: seq<T>, d: seq<T>)
    requires IsSubsequence(a, b)
    ensures IsSubsequence(a, b + d)
    decreases |d|
  {
    if d == [] {
      assert b + d == b;
    } else if a != [] {
      assert (b + d)[..|b + d| - 1] == b + d[..|d| - 1];
      SubsequenceExtend(a, b, d[..|d| - 1]);
    }
  }

  lemma {:induction false} SubsequenceAppend<T>(a: seq<T>, b: seq<T>, c: seq<T>, d: seq<T>)
    requires IsSubsequence(a, b) && IsSubsequence(c, d)
    ensures IsSubsequence(a + c, b + d)
    decreases |d|
  {
    if c == [] {
      assert a + c == a;
      SubsequenceExtend(a, b, d);
    } else {
      assert (a + c)[..|a + c| - 1] == a + c[..|c| - 1];
      assert (b + d)[..|b + d| - 1] == b + d[..|d| - 1];
      if c[|c| - 1] == d[|d| - 1] && IsSubsequence(c[..|c| - 1], d[..|d| - 1]) {
        SubsequenceAppend(a, b, c[..|c| - 1], d[..|d| - 1]);
      } else {
        SubsequenceAppend(a, b, c, d[..|d| - 1]);
      }
    }
  }

  /** The concatenation of the sequences, in order. */
  function Flatten<T>(xss: seq<seq<T>>): seq<T> {
    if xss == [] then [] else xss[0] + Flatten(xss[1..])
  }

  lemma {:induction false} FlattenSingletons<T>(xs: seq<T>, xss: seq<seq<T>>)
    requires |xss| == |xs|
    requires forall i :: 0 <= i < |xs| ==> xss[i] == [xs[i]]
    ensures Flatten(xss) == xs
  {
    if xs != [] {
      assert forall i :: 0 <= i < |xs| - 1 ==> xss[1..][i] == [xs[1..][i]];
      FlattenSingletons(xs[1..], xss[1..]);
      assert xs == [xs[0]] + xs[1..];
    }
  }

  /** The (contest type, trace type) of each trace. */
  function Labels(traces: seq<ContestTrace>): (r: seq<(string, string)>)
    ensures |r| == |traces|
    ensures forall i :: 0 <= i < |traces| ==> r[i] == (traces[i].contestType, traces[i].traceType)
  {
    seq(|traces|, i requires 0 <= i < |traces| => (traces[i].contestType, traces[i].traceType))
  }

  lemma LabelsAppend(s: seq<ContestTrace>, t: seq<ContestTrace>)
    ensures Labels(s + t) == Labels(s) + Labels(t)
  {
  }

  /**
   * If each call appends only traces labelled, in order, from its own list,
   * the loop appends only traces labelled from the concatenated lists.
   */
  lemma {:induction false} ChainLabels(effects: seq<Effect>, offered: seq<seq<(string, string)>>)
    requires |offered| == |effects|
    requires forall k :: 0 <= k < |effects| ==> IsSubsequence(Labels(effects[k].added), offered[k])
    ensures IsSubsequence(Labels(Chain(effects).added), Flatten(offered))
  {
    if effects != [] {
      var rest, later := effects[1..], offered[1..];
      assert forall k :: 0 <= k < |rest| ==> rest[k] == effects[k + 1] && later[k] == offered[k + 1];
      ChainLabels(rest, later);
      var first, after := effects[0], Chain(rest);
      if first.outcome.Raise? {
        SubsequenceExtend(Labels(first.added), offered[0], Flatten(later));
      } else {
        LabelsAppend(first.added, after.added);
        SubsequenceAppend(Labels(first.added), offered[0], Labels(after.added), Flatten(later));
      }
    }
  }

  /** The (contest name, trace name) pairs one contest offers: none unless its value is a dict. */
  function ContestLabels(contestName: string, traces: Json): (r: seq<(string, string)>)
    ensures traces.JObj? ==> |r| == |traces.fields| && forall i :: 0 <= i < |r| ==> r[i] == (contestName, traces.fields[i].0)
    ensures !traces.JObj? ==> r == []
  {
    match traces
    case JObj(pairs) => seq(|pairs|, i requires 0 <= i < |pairs| => (contestName, pairs[i].0))
    case _ => []
  }

  /** The (contest name, trace name) pairs of all contests, in iteration order. */
  function ContestListLabels(contests: seq<(string, Json)>): seq<seq<(string, string)>> {
    seq(|contests|, i requires 0 <= i < |contests| => ContestLabels(contests[i].0, contests[i].1))
  }

  /** `save_trace` appends at most one trace, labelled with its own contest and trace names. */
  lemma TraceEffectLabels(contestName: string, traceName: string, trace: Json, takeoff: Option<DateTime>)
    ensures IsSubsequence(Labels(TraceEffect(contestName, traceName, trace, takeoff).added), [(contestName, traceName)])
  {
    var labels := Labels(TraceEffect(contestName, traceName, trace, takeoff).added);
    if labels != [] {
      assert labels[..0] == [];
    }
  }

  /** `save_contest` appends traces labelled, in order, from distinct pairs of its dict. */
  lemma ContestEffectLabels(contestName: string, traces: Json, takeoff: Option<DateTime>)
    ensures IsSubsequence(Labels(ContestEffect(contestName, traces, takeoff).added), ContestLabels(contestName, traces))
  {
    if traces.JObj? {
      var pairs := traces.fields;
      var effects := TraceEffects(contestName, pairs, takeoff);
      var offered := seq(|pairs|, i requires 0 <= i < |pairs| => [(contestName, pairs[i].0)]);
      forall k | 0 <= k < |pairs|
        ensures IsSubsequence(Labels(effects[k].added), offered[k])
      {
        TraceEffectLabels(contestName, pairs[k].0, pairs[k].1, takeoff);
      }
      ChainLabels(effects, offered);
      FlattenSingletons(ContestLabels(contestName, traces), offered);
    }
  }

  /**
   * Every trace `save_contests` appends comes from its own (contest, trace)
   * pair of the report, in iteration order; so it appends at most one trace
   * per pair.
   */
  lemma ContestsEffectFromPairs(root: Json, takeoff: Option<DateTime>)
    requires root.JObj? && Lookup(root.fields, "contests").Some? && Lookup(root.fields, "contests").value.JObj?
    ensures var offered := Flatten(ContestListLabels(Lookup(root.fields, "contests").value.fields));
            && IsSubsequence(Labels(ContestsEffect(root, takeoff).added), offered)
            && |ContestsEffect(root, takeoff).added| <= |offered|
  {
    var contests := Lookup(root.fields, "contests").value.fields;
    var offered := Flatten(ContestListLabels(contests));
    if takeoff.Some? {
      var effects := ContestEffects(contests, takeoff);
      forall k | 0 <= k < |contests|
        ensures IsSubsequence(Labels(effects[k].added), ContestListLabels(contests)[k])
      {
        ContestEffectLabels(contests[k].0, contests[k].1, takeoff);
      }
      ChainLabels(effects, ContestListLabels(contests));
    }
    SubsequenceLength(Labels(ContestsEffect(root, takeoff).added), offered);
  }
}
